=== FILE: README.md ===
# vfetcher, modelled in Dafny

vfetcher is a small Vue composable library for data fetching. `useFetch`
wraps ofetch's `$fetch`. `useAsyncData` wraps any async producer.
`usePagination` and `createUseFetch` are built on top of them. This project
models the library's core and proves properties of that model:

- **Option resolution** (`src/core/ctx.ts`). The option bag is split into
  three parts: orchestration options, reactive request overrides and
  transport options. The module also covers content-type lookup, the
  JSON-serializability test and form-encoding of the body (`resolveBody`).
- **Utilities** (`src/core/utils/general.ts`). `toArray`, the path walker
  `get`, and `clearUndefined`, which works in place.
- **Timing filters**. These are vendored from VueUse:
  - `debounceFilter`/`useDebounceFn`, with `maxWait` and `rejectOnCancel`;
  - `throttleFilter`/`useThrottleFn`, with `trailing`, `leading` and
    `rejectOnCancel`;
  - `useTimeoutFn`, a restartable timer;
  - `useTimeoutPoll`, a poller that re-arms only after `fn` settles.
- **The composables**:
  - their request state (`status`, `pending`, `data`, `error`);
  - the execution pipeline (request, possibly debounced, possibly
    throttled);
  - what they do at creation (one immediate call, or a poller);
  - their watch sources;
  - the options `useFetch` hands to `$fetch`, and the hooks it installs;
  - pagination: page injection, the option defaults, totals, and preset
    chaining with `create`;
  - the preset factory of `createUseFetch`, which mutates its preset.

Each stateful part follows the same pattern:

- A pure `State` datatype and transition functions on it form the
  specification.
- A class mirrors the source's closure variables or refs. Its methods are
  proved to follow the transition functions
  (`ensures Current() == F(old(Current()), ...)`).
- Lemmas about the transition functions carry the properties: invariants
  kept, promises settled at most once, invocation counts, window bounds, and
  the test scenarios.

Some things outside the model become parameters:

- Time is an explicit clock `now` in milliseconds. A timer fires through a
  method that requires its due time to have passed.
- A JavaScript promise is a settlement slot where the first settlement wins.
- Refs and getters are resolved through an environment map (`toValue`).

| file | module | models |
|---|---|---|
| wrappers.dfy | `Wrappers` | `Option` |
| values.dfy | `JsValues` | JavaScript values, truthiness, `toValue` |
| general.dfy | `General` | `toArray`, `get`, `clearUndefined` |
| ctx.dfy | `Ctx` | `resolveOptions`, `getContentType`, `isJSONSerializable`, `resolveBody` |
| timers.dfy | `Timers` | timers and promise settlement shared by the filters |
| debounce.dfy | `Debounce` | `debounceFilter` |
| throttle.dfy | `Throttle` | `throttleFilter` |
| timeout_fn.dfy | `Timeout` | `useTimeoutFn` |
| timeout_poll.dfy | `Polling` | `useTimeoutPoll` |
| wiring.dfy | `Wiring` | pipeline shape and creation behaviour shared by both composables |
| async_data.dfy | `AsyncData` | `createUseAsyncData` / `useAsyncData` |
| fetch.dfy | `Fetch` | `useFetch` |
| pagination.dfy | `Pagination` | `createUsePagination` / `usePagination` |
| create_use_fetch.dfy | `PresetFetch` | `createUseFetch` |

## Model

| member | source | states |
|---|---|---|
| `General.ToArray` | src/core/utils/general.ts:10-13 | null and undefined give no elements, an array gives its own items, anything else a one-element list |
| `General.ToArrayIdempotent` | src/core/utils/general.ts:10-13 | normalising an already normalised array changes nothing; every element comes from the input |
| `General.Split` | src/core/utils/general.ts:22 | splitting on `.`, `[`, `]` gives one more segment than delimiters, none containing a delimiter |
| `General.SplitRebuild` | src/core/utils/general.ts:22 | splitting loses nothing: segments and delimiters rebuild the path |
| `General.RebuildSplit` | src/core/utils/general.ts:22 | splitting a rebuilt path gives back exactly its segments and delimiters (the inverse direction) |
| `General.Dequote` | src/core/utils/general.ts:29 | no quote is left and the key never grows |
| `General.DequoteIdempotent` | src/core/utils/general.ts:29 | removing quotes twice is removing them once; a quote-free key is unchanged |
| `General.ParseIndex` | src/core/utils/general.ts:32 | a key names an array index exactly when it is a canonical decimal |
| `General.ParseShowNat` | src/core/utils/general.ts:32 | every array index is found again under its decimal key |
| `General.Lookup` | src/core/utils/general.ts:32 | `current[key]`: an object's own field, an array element, undefined otherwise |
| `General.Walk` | src/core/utils/general.ts:24-36 | what the loop of `get` computes from the remaining segments; stated by `General.WalkIsDescent` and the `General.Get*` lemmas |
| `General.WalkIsDescent` | src/core/utils/general.ts:24-36 | the loop's result is the descent through the segments, with the default for a null/undefined met midway or a final undefined |
| `General.DescendAppend` | src/core/utils/general.ts:24-33 | descending through `a + b` is descending through `a`, then `b` |
| `General.Get` | src/core/utils/general.ts:21-37 | the imperative loop of `get` computes the walk over the split path |
| `General.GetBlankPath` | src/core/utils/general.ts:25-31 | a path of blanks and delimiters selects the value itself; a nullish value gives the default |
| `General.GetNullishMidway` | src/core/utils/general.ts:25-28 | once a null or undefined is reached with a segment left, the result is the default |
| `General.GetFinalValue` | src/core/utils/general.ts:34-36 | a final undefined gives the default but a final null is returned |
| `General.GetNested` | src/core/utils/general.ts:21-37 | a path of plain keys gives the nested value when present and not undefined, else the default |
| `General.GetFriendsExample` | src/core/utils/general.ts:19 | the documented `get(person, 'friends[0].name')` example |
| `General.WithoutUndefinedSpec` | src/core/utils/general.ts:40-44 | exactly the undefined-valued keys go, the rest keep their values, and a second pass changes nothing |
| `General.JsObject.ClearUndefined` | src/core/utils/general.ts:40-44 | the same object is returned, its properties now without the undefined-valued ones |
| `Ctx.ResolveOptions` | src/core/ctx.ts:12-83 | `immediate` defaults to true and `watch` to `[]`; all 23 transport keys are present with the caller's values; the overrides are exactly the remaining keys with their values |
| `Ctx.ResolveOptionsPartition` | src/core/ctx.ts:13-45 | the three parts are disjoint and every key given lands in exactly one of them |
| `Ctx.TransportKeyAlwaysPresent` | src/core/ctx.ts:56-80 | a transport option left out is still passed on, as undefined |
| `Ctx.HeaderGet` | src/core/ctx.ts:103-107 | the lookup is absent exactly when no header of that name exists in any letter case |
| `Ctx.GetContentTypeIsLookup` | src/core/ctx.ts:102-109 | the four tried spellings amount to one case-insensitive lookup of `content-type` |
| `Ctx.GetContentType` | src/core/ctx.ts:102-109 | the four spellings tried in turn with `??`; stated by `Ctx.GetContentTypeIsLookup` |
| `Ctx.SameLowerSameHeader` | src/core/ctx.ts:103-107 | names equal up to case give the same header value |
| `Ctx.ObjectProp` | src/core/ctx.ts:125-130 | `value.buffer` and `value.toJSON`: an own field wins; otherwise `toJSON` is a function exactly for a `Date` and `buffer` is truthy exactly for an array-buffer view |
| `Ctx.IsJSONSerializable` | src/core/ctx.ts:111-132 | undefined, functions, forms and refs are not serializable; primitives, null and arrays are; an object is when it has no truthy `buffer` and a plain constructor or a `toJSON` function, own or inherited from a built-in prototype |
| `Ctx.BuiltInPrototypes` | src/core/ctx.ts:125-131 | a `Date` is serializable through its inherited `toJSON`; a typed array or `DataView` is not because of its `buffer`; an own `toJSON` function makes an instance of any class serializable |
| `Ctx.IsJSONSerializableAsWritten` | src/core/ctx.ts:111-132 | as written: no answer (a TypeError) for null, otherwise the same decision as the corrected test; stated by `Ctx.JSONSerializableNullFinding` |
| `Ctx.DateBodyFormEncoded` | src/core/ctx.ts:85-100 | under a form content type, a `Date` body is replaced by its form encoding |
| `Ctx.JSONSerializableNullFinding` | src/core/ctx.ts:116-125 | as written, null throws; the corrected test accepts it and agrees with the code on every other value |
| `Ctx.ResolvedBodySpec` | src/core/ctx.ts:85-100 | the body changes exactly when it is truthy, the content type mentions form encoding and the body is serializable; it then becomes a form, and a second pass changes nothing |
| `Ctx.ResolvedBody` | src/core/ctx.ts:85-100 | the body after `resolveBody`, with the corrected serializability test; stated by `Ctx.ResolvedBodySpec` and `Ctx.ResolvedBodyUnaffectedByFinding` |
| `Ctx.ResolvedBodyUnaffectedByFinding` | src/core/ctx.ts:86-96 | for every body `resolveBody` reaches, the as-written and corrected serializability tests agree |
| `Ctx.RequestOptions.ResolveBody` | src/core/ctx.ts:85-100 | the body is replaced in place by the resolved body and the headers are left alone |
| `Timers.Settle` | src/core/utils/useDebounceFn.ts:56-75 | settling a promise affects only that promise, and only if it is still pending |
| `Debounce.CancelLastKeeps` | src/core/utils/useDebounceFn.ts:35-39 | running `lastRejector` keeps the invariant, empties the rejector and changes no settled promise |
| `Debounce.ClearTimerKeeps` | src/core/utils/useDebounceFn.ts:45-46 | clearing the timer leaves no live timer and keeps the invariant |
| `Debounce.CallKeepsValid` | src/core/utils/useDebounceFn.ts:41-76 | a call keeps the invariant, never changes a settled promise and never lowers the invocation count |
| `Debounce.TimerFiredKeepsValid` | src/core/utils/useDebounceFn.ts:69-74 | the regular timer's expiry keeps the invariant and settled promises |
| `Debounce.MaxTimerFiredKeepsValid` | src/core/utils/useDebounceFn.ts:60-65 | the max-wait timer's expiry keeps the invariant and settled promises |
| `Debounce.CallDefers` | src/core/utils/useDebounceFn.ts:56-75 | a deferred call invokes nothing, cancels the previous pending promise, returns a pending promise and arms one timer `duration` ahead |
| `Debounce.CallImmediate` | src/core/utils/useDebounceFn.ts:44-54 | a delay or `maxWait` of zero or less invokes at once, returns a promise of the result and clears any max timer; clearing the regular timer first settles the previous pending promise as cancelled (undefined, or a rejection with `rejectOnCancel`) |
| `Debounce.DefaultDelayDefers` | src/core/utils/useDebounceFn.ts:18 | `useDebounceFn(fn)` with its 200 ms default and no `maxWait` defers each call to a timer 200 ms ahead |
| `Debounce.FireTimerInvokes` | src/core/utils/useDebounceFn.ts:69-74 | the timer's expiry invokes once and the owner's promise follows that invocation |
| `Debounce.FireMaxTimerInvokes` | src/core/utils/useDebounceFn.ts:60-65 | the max timer's expiry cancels the regular timer, clears itself and invokes once |
| `Debounce.BurstCoalesces` | src/core/utils/useDebounceFn.ts:41-76 | a burst of calls invokes nothing; only the last promise is pending; the timer counts from the last call and the max timer from the first |
| `Debounce.BurstInvokesOnce` | src/core/utils/useDebounceFn.ts:41-76 | without `maxWait`, a burst followed by expiry invokes exactly once; the last promise follows it, every earlier one was cancelled |
| `Debounce.MaxWaitResultReachesNoCaller` | src/core/utils/useDebounceFn.ts:35-74 | with `maxWait`, expiry first cancels the last caller's promise, so the invocation's result reaches no caller |
| `Debounce.DebounceTestScenario` | test/useFetch.test.ts:103-123 | awaited call, three rapid calls, then an awaited call, with a 50 ms delay: three invocations in all |
| `Debounce.DebounceFilter.constructor` | src/core/utils/useDebounceFn.ts:30-33 | no timer, no max timer, a no-op rejector |
| `Debounce.DebounceFilter.RunLastRejector` | src/core/utils/useDebounceFn.ts:35-39 | the closure state after running and resetting `lastRejector` |
| `Debounce.DebounceFilter.Filter` | src/core/utils/useDebounceFn.ts:41-76 | the closure state after one call, and the index of the promise the call returns |
| `Debounce.DebounceFilter.FireTimer` | src/core/utils/useDebounceFn.ts:69-74 | the closure state after the regular timer's callback |
| `Debounce.DebounceFilter.FireMaxTimer` | src/core/utils/useDebounceFn.ts:60-65 | the closure state after the max-wait timer's callback |
| `Throttle.ClearKeeps` | src/core/utils/useThrottleFn.ts:61-68 | `clear()` leaves no trailing timer and no pending promise, and changes no settled promise; the trailing call's promise, and only it, is settled as cancelled (undefined, or a rejection with `rejectOnCancel`) |
| `Throttle.CallCancelsTrailing` | src/core/utils/useThrottleFn.ts:61-90 | a call made while a trailing call waits settles that call's promise as cancelled, through its `lastRejector` |
| `Throttle.CallKeepsValid` | src/core/utils/useThrottleFn.ts:70-105 | a call keeps the invariant (at most one pending promise, the trailing timer's) and settled promises |
| `Throttle.FiredKeepValid` | src/core/utils/useThrottleFn.ts:91-101 | both timer callbacks keep the invariant; the trailing one sets `lastExec` to now and `isLeading` to true, invokes once and resolves its promise with that invocation |
| `Throttle.CallInvokesOnlyAfterWindow` | src/core/utils/useThrottleFn.ts:84-103 | with a positive delay, a call invokes if and only if more than `duration` has elapsed and leading calls are allowed; it then returns that invocation; `isLeading` is false after every such call |
| `Throttle.CallInsideWindow` | src/core/utils/useThrottleFn.ts:88-98 | inside the window nothing is invoked: the old value is returned, or with `trailing` a fresh pending promise whose timer ends the window |
| `Throttle.TrailingNotBeforeWindowEnd` | src/core/utils/useThrottleFn.ts:96 | a trailing call is due no earlier than `duration` after the last execution |
| `Throttle.NoLeadingCall` | src/core/utils/useThrottleFn.ts:84-103 | without `leading`, a call in a fresh window never invokes at once |
| `Throttle.NoDelayInvokes` | src/core/utils/useThrottleFn.ts:79-82 | a delay of zero or less invokes every call and leaves `isLeading` unchanged |
| `Throttle.FilterDefaultsLeadAndTrail` | src/core/utils/useThrottleFn.ts:47-103 | `throttleFilter(ms)` defaults to leading and trailing: a call after the window invokes at once; one inside it returns a pending promise whose timer ends the window |
| `Throttle.DefaultsDropInsideWindow` | src/core/utils/useThrottleFn.ts:24-30 | `useThrottleFn(fn)` with its 200 ms default and no trailing call drops a call inside the window and returns the previous value |
| `Throttle.ThrottleTestScenario` | test/useFetch.test.ts:125-144 | awaited call, two calls, 150 ms later another: two invocations, and the calls in the window return the first result |
| `Throttle.ThrottleFilter.constructor` | src/core/utils/useThrottleFn.ts:47-60 | `lastExec` 0, no timer, `isLeading` true, no rejector, flags as configured |
| `Throttle.ThrottleFilter.Clear` | src/core/utils/useThrottleFn.ts:61-68 | the closure state after `clear()` |
| `Throttle.ThrottleFilter.Invoke` | src/core/utils/useThrottleFn.ts:73-75 | the closure state after a leading invocation |
| `Throttle.ThrottleFilter.Filter` | src/core/utils/useThrottleFn.ts:70-105 | the closure state after one call, which returns the new `lastValue` |
| `Throttle.ThrottleFilter.FireTrailing` | src/core/utils/useThrottleFn.ts:91-95 | the closure state after the trailing timer's callback |
| `Throttle.ThrottleFilter.FireReset` | src/core/utils/useThrottleFn.ts:101 | the closure state after the window-ending timer's callback |
| `Timeout.StepsKeepValid` | src/core/utils/useTimeoutFn.ts:24-54 | creation, `start`, `stop` and expiry keep `isPending` true exactly while a timer is scheduled |
| `Timeout.RestartReplaces` | src/core/utils/useTimeoutFn.ts:40-49 | starting again replaces the earlier timer without running the callback |
| `Timeout.StopIdempotent` | src/core/utils/useTimeoutFn.ts:35-38 | `stop` cancels without running the callback, and a second `stop` changes nothing |
| `Timeout.CreationStarts` | src/core/utils/useTimeoutFn.ts:20-54 | by default the timer runs right after creation; with `immediate: false` nothing runs |
| `Timeout.FireRunsOnce` | src/core/utils/useTimeoutFn.ts:43-48 | each expiry runs the callback once, after `isPending` and the timer are reset |
| `Timeout.TimeoutFn.constructor` | src/core/utils/useTimeoutFn.ts:15-56 | the state `useTimeoutFn` creates |
| `Timeout.TimeoutFn.Clear` | src/core/utils/useTimeoutFn.ts:28-33 | the state after `clear()` |
| `Timeout.TimeoutFn.Stop` | src/core/utils/useTimeoutFn.ts:35-38 | the state after `stop()` |
| `Timeout.TimeoutFn.Start` | src/core/utils/useTimeoutFn.ts:40-49 | the state after `start()` |
| `Timeout.TimeoutFn.Fire` | src/core/utils/useTimeoutFn.ts:43-48 | the state after the timer's callback |
| `Timeout.TimeoutFn.Dispose` | src/core/utils/useTimeoutFn.ts:56 | scope disposal stops the timer |
| `Polling.CreationState` | src/core/utils/useTimeoutPoll.ts:19-43 | the poller starts inactive with no timer; `immediate` activates it and calls `fn` exactly once |
| `Polling.ResumeOnce` | src/core/utils/useTimeoutPoll.ts:31-36 | `resume` on an active poller does nothing; on an inactive one it activates and calls `fn` once |
| `Polling.PausedTimerCallsNothing` | src/core/utils/useTimeoutPoll.ts:23-25 | once paused, an expiring timer calls `fn` no more |
| `Polling.RearmAfterFn` | src/core/utils/useTimeoutPoll.ts:27-28 | the timer is re-armed only after `fn` resolves, `interval` after that moment |
| `Polling.RejectionStopsPolling` | src/core/utils/useTimeoutPoll.ts:23-36 | a rejecting `fn` leaves no timer while the poller stays active, so `resume` cannot restart it |
| `Polling.DisposedCallsNothing` | src/core/utils/useTimeoutPoll.ts:45 | after disposal, no sequence of settlements and expiries calls `fn` again |
| `Polling.PollingTestScenario` | test/useFetch.test.ts:81-101 | with a 50 ms interval, two calls before disposal and none after |
| `Polling.TimeoutPoll.constructor` | src/core/utils/useTimeoutPoll.ts:14-44 | the state `useTimeoutPoll` creates, with a fresh inner timer |
| `Polling.TimeoutPoll.Loop` | src/core/utils/useTimeoutPoll.ts:23-27 | the state after `loop()` reaches `await fn()` |
| `Polling.TimeoutPoll.Resume` | src/core/utils/useTimeoutPoll.ts:31-36 | the state after `resume()` |
| `Polling.TimeoutPoll.Pause` | src/core/utils/useTimeoutPoll.ts:38-40 | the state after `pause()` |
| `Polling.TimeoutPoll.SettleFn` | src/core/utils/useTimeoutPoll.ts:27-28 | the state once `fn` settles |
| `Polling.TimeoutPoll.FireTimer` | src/core/utils/useTimeoutPoll.ts:19-29 | the state after the inner timer runs `loop` |
| `Polling.TimeoutPoll.Dispose` | src/core/utils/useTimeoutPoll.ts:45 | the state after disposal: inner stop, then pause |
| `Wiring.LayersDetermine` | src/core/useFetch.ts:49-54 | a pipeline is determined by its list of layers |
| `Wiring.CreationCallsOnce` | src/core/useAsyncData.ts:65-72 | creation calls `execute` exactly once when `immediate` is truthy and never otherwise, by the poller when polling and directly otherwise, never both |
| `AsyncData.MergeAsWritten` | src/core/useAsyncData.ts:23 | as written, a preset key overrides the call-site value of the same key |
| `AsyncData.MergePrecedenceFinding` | src/core/useAsyncData.ts:23 | as written, a call-site `immediate: true` is lost under a preset `immediate: false`; the corrected merge keeps it |
| `AsyncData.Merge` | src/core/useAsyncData.ts:23 | corrected: call-site keys override the preset |
| `AsyncData.Context` | src/core/useAsyncData.ts:22-23 | (corrected merge) the resolved context of a call site under a preset; the merge is stated by `AsyncData.Merge` |
| `AsyncData.Create` | src/core/useAsyncData.ts:91-92 | `create` keeps every key, and the newer defaults win |
| `AsyncData.PresetLayers` | src/core/useAsyncData.ts:91-92 | along a chain of `create` calls, each key comes from the nearest layer that has it |
| `AsyncData.CreateTestScenario` | test/useAsyncData.test.ts:140-155 | `create({ immediate: false }).create({ ready })` called with no options keeps both keys and is not immediate |
| `AsyncData.ExecutePipeline` | src/core/useAsyncData.ts:54-61 | the piped pipeline's layers are a throttle if `throttleInterval` is defined, around a debounce if `debounceInterval` is defined |
| `AsyncData.WatchSources` | src/core/useAsyncData.ts:74-79 | nothing for `watch: false` or a falsy value, an array's items, or a single source |
| `AsyncData.DefaultWatchesNothing` | src/core/useAsyncData.ts:74-77 | with no `watch` option anywhere, nothing is watched |
| `AsyncData.RequestLifecycle` | src/core/useAsyncData.ts:30-52 | pending while in flight and never after; on success the result is stored; on failure `data` stays, the error (wrapped unless an Error) is stored and exactly it is re-thrown |
| `AsyncData.Started` | src/core/useAsyncData.ts:33-34 | the refs when the request starts; stated by `AsyncData.RequestLifecycle` |
| `AsyncData.Settled` | src/core/useAsyncData.ts:36-51 | the refs once the producer settles, `finally` included; stated by `AsyncData.RequestLifecycle` |
| `AsyncData.Executed` | src/core/useAsyncData.ts:30-63 | one gated execution and its rejection; stated by `AsyncData.ReadyGate` |
| `AsyncData.ReadyGate` | src/core/useAsyncData.ts:63 | with `ready` falsy, `execute` changes nothing; otherwise it runs to completion |
| `AsyncData.ReadyTestScenario` | test/useAsyncData.test.ts:28-40 | nothing happens while `ready` is false; afterwards the data arrives |
| `AsyncData.ErrorTestScenario` | test/useAsyncData.test.ts:157-177 | `execute` rejects with exactly the value stored in `error` |
| `AsyncData.AsyncDataRefs.constructor` | src/core/useAsyncData.ts:25-28 | idle, not pending, null data, no error |
| `AsyncData.AsyncDataRefs.Start` | src/core/useAsyncData.ts:33-34 | the refs after the request starts |
| `AsyncData.AsyncDataRefs.Settle` | src/core/useAsyncData.ts:36-51 | the refs after the producer settles, and what is re-thrown |
| `AsyncData.AsyncDataRefs.Execute` | src/core/useAsyncData.ts:30-63 | the refs and the rejection after one gated execution |
| `Fetch.ExecutePipeline` | src/core/useFetch.ts:49-54 | the layers are a throttle if `throttleInterval` is defined, around a debounce if `debounceInterval` is defined |
| `Fetch.SamePipelineAsAsyncData` | src/core/useFetch.ts:49-54 | for the same options, `useFetch` builds the same pipeline as `useAsyncData` |
| `Fetch.CreationRequests` | src/core/useFetch.ts:56-63 | creation requests once when `immediate` is truthy and never otherwise; with no `immediate` option, exactly once |
| `Fetch.WatchSources` | src/core/useFetch.ts:65-70 | nothing for `watch: false`; otherwise the request, the overrides, then the same user sources `useAsyncData` watches |
| `Fetch.ResolvedOverrides` | src/core/useFetch.ts:32-34 | the same keys, each resolved to its current value |
| `Fetch.Outgoing` | src/core/useFetch.ts:30-44 | the object spread handed to `$fetch`: transport options, then resolved overrides, then the two internal hooks; its keys, hooks and values are stated by `Fetch.OutgoingKeys`, `Fetch.OutgoingHooks` and `Fetch.OutgoingValues` |
| `Fetch.InternalHooksAreTransportKeys` | src/core/ctx.ts:28-29 | `onResponse` and `onRequestError` are transport keys, so the internal hooks replace the user's |
| `Fetch.OutgoingKeys` | src/core/useFetch.ts:30-44 | `$fetch` receives every transport key and every other key given, but no orchestration key |
| `Fetch.OutgoingHooks` | src/core/useFetch.ts:35-43 | `$fetch` receives the internal `onResponse`/`onRequestError`, never the user's |
| `Fetch.OutgoingValues` | src/core/useFetch.ts:31-34 | other transport keys go as given (undefined when absent); other keys go resolved to their current value |
| `Fetch.ResponseHooked` | src/core/useFetch.ts:35-38 | the internal `onResponse`: `success`, then the user's `onResponse` unless nullish; stated by `Fetch.ExecutionOutcomeAsWritten` |
| `Fetch.RequestErrorHookedAsWritten` | src/core/useFetch.ts:39-43 | as written: `error` with the request error, then the user's `onResponseError` unless nullish; stated by `Fetch.RequestErrorHookFinding` |
| `Fetch.RequestErrorHooked` | src/core/useFetch.ts:39-43 | (corrected) `error` with the request error, then the user's own `onRequestError`; stated by `Fetch.RequestErrorHookFinding` |
| `Fetch.FetchRejectedAsWritten` | src/core/useFetch.ts:30-46 | as written: a rejected `$fetch` skips line 46 and changes nothing; stated by `Fetch.PendingAfterRejectionFinding` |
| `Fetch.FetchRejected` | src/core/useFetch.ts:30-46 | (corrected) a rejected `$fetch` resets `pending` too; stated by `Fetch.PendingAfterRejectionFinding` |
| `Fetch.RequestErrorHookFinding` | src/core/useFetch.ts:39-43 | as written, a user's `onRequestError` is never called; the corrected hook calls it |
| `Fetch.ExecutedAsWritten` | src/core/useFetch.ts:26-47 | one execution as written, hook by hook: start, the user's `onRequest`, then the internal `onResponse` (and `onResponseError` and a rejection for a response `$fetch` rejects) or the internal `onRequestError` and a rejection; outcome in `Fetch.ExecutionOutcomeAsWritten` |
| `Fetch.Executed` | src/core/useFetch.ts:26-47 | (corrected) the same sequence with the user's own `onRequestError` called and `pending` reset on a rejection; outcome in `Fetch.ExecutionOutcome` |
| `Fetch.PendingAfterRejectionFinding` | src/core/useFetch.ts:26-47 | as written, every failed execution leaves `pending` true for good; corrected, never |
| `Fetch.ExecutionOutcomeAsWritten` | src/core/useFetch.ts:26-47 | as written: `pending` stays on exactly when the execution fails; `success` for every response, even one `$fetch` rejects (a 400-599 status without `ignoreResponseError`); `error` only for a failed request, holding its error; `data` replaced only by a response `$fetch` resolves with |
| `Fetch.ExecutionOutcome` | src/core/useFetch.ts:26-47 | (corrected) with `pending` reset on failure: an execution ends not pending; otherwise the same outcome as the source: `success` for every response, `error` only for a failed request, `data` replaced only by a response `$fetch` resolves with |
| `Fetch.FixesOnlyTouchFailures` | src/core/useFetch.ts:26-47 | the corrected execution agrees with the source on every successful response |
| `Fetch.FetchRefs.constructor` | src/core/useFetch.ts:17-20 | idle, not pending, null data, no error, no hooks called |
| `Fetch.FetchRefs.Start` | src/core/useFetch.ts:27-28 | the refs after the request starts |
| `Fetch.FetchRefs.CallUserHook` | src/core/useFetch.ts:37 | a user hook is called (recorded) unless it is nullish |
| `Fetch.FetchRefs.OnResponse` | src/core/useFetch.ts:35-38 | `success`, then the user's `onResponse` |
| `Fetch.FetchRefs.OnRequestError` | src/core/useFetch.ts:39-43 | `error` with the request error, then the user's own `onRequestError` (corrected) |
| `Fetch.FetchRefs.Resolve` | src/core/useFetch.ts:30-46 | the data stored and `pending` reset |
| `Fetch.FetchRefs.Reject` | src/core/useFetch.ts:46 | `pending` reset after a rejection as well (corrected) |
| `Fetch.FetchRefs.Execute` | src/core/useFetch.ts:26-47 | the refs after one execution, hook by hook |
| `Pagination.Rest` | src/core/usePagination.ts:18-28 | every option except the five pagination options, with its value |
| `Pagination.SettingsPrecedence` | src/core/usePagination.ts:18-28 | a call-site string key wins; a key the call site leaves out comes from the preset; an explicit undefined at the call site gives the built-in default even over a preset |
| `Pagination.NoOptionsDefaults` | src/core/usePagination.ts:18-25 | with no options: `current`, `pageSize`, 10, `total`, `totalPage` |
| `Pagination.SettingsOf` | src/core/usePagination.ts:18-28 | the five destructured settings with their defaults; stated by `Pagination.SettingsPrecedence` and `Pagination.NoOptionsDefaults` |
| `Pagination.Truthies` | src/core/usePagination.ts:47 | exactly the truthy elements remain, never more than the input, and an all-truthy list is unchanged |
| `Pagination.TruthiesAppend` | src/core/usePagination.ts:47 | `.filter(Boolean)` keeps order and repetitions: filtering `a + b` is filtering `a`, then `b`, and one element stays exactly when truthy |
| `Pagination.OnRequestHooks` | src/core/usePagination.ts:42-48 | the injector first, then the user's truthy hooks in their own order (the `.filter(Boolean)` of their list) |
| `Pagination.ForwardedOptions` | src/core/usePagination.ts:39-49 | `useFetch` receives no pagination option, the rewritten `watch` and `onRequest`, and every other option unchanged |
| `Pagination.PaginationWatchSources` | src/core/usePagination.ts:39-49 | with `watch: false` the request and overrides are still watched but not the page refs; otherwise the page refs are watched before the user's sources |
| `Pagination.ForwardedWatch` | src/core/usePagination.ts:41 | `useFetch` reads back the rewritten `watch` |
| `Pagination.WatchOptionSources` | src/core/usePagination.ts:41 | the sources the rewritten `watch` makes `useFetch` watch |
| `Pagination.InjectorRunsFirst` | src/core/usePagination.ts:42-48 | `$fetch` receives the injector as its first `onRequest` hook, and no falsy hook |
| `Pagination.WatchOption` | src/core/usePagination.ts:41 | the rewritten `watch`; stated by `Pagination.WatchOptionSources` |
| `Pagination.Forwarded` | src/core/usePagination.ts:39-49 | the second argument of `useFetch`; stated by `Pagination.ForwardedOptions` |
| `Pagination.AssignPaginationKey` | src/core/usePagination.ts:33-37 | the result is always a plain object |
| `Pagination.AssignKeeps` | src/core/usePagination.ts:33-37 | every existing key is kept; a truthy page or size is kept; a falsy or missing one is replaced by the ref's value |
| `Pagination.AssignIdempotent` | src/core/usePagination.ts:33-37 | injecting twice is injecting once |
| `Pagination.ToNumber` | src/core/usePagination.ts:52 | the division's operands become numbers; numbers are unchanged |
| `Pagination.Divide` | src/core/usePagination.ts:52 | IEEE division; finite by nonzero is the real quotient |
| `Pagination.Ceil` | src/core/usePagination.ts:52 | `Math.ceil` leaves NaN and infinities alone |
| `Pagination.PageCount` | src/core/usePagination.ts:52 | for `t` items and `s` per page, the default page count is the least `n` with `n * s >= t` |
| `Pagination.ZeroPageSize` | src/core/usePagination.ts:52 | a zero page size gives Infinity for a positive total and NaN for zero; an unreadable total gives NaN |
| `Pagination.GetPlainKey` | src/core/usePagination.ts:51-52 | a plain key path selects one field, or the default |
| `Pagination.TotalOf` | src/core/usePagination.ts:51 | `get(data, totalKey, 0)`; stated by `Pagination.TotalsWithoutData` and `Pagination.TotalsTestScenario` |
| `Pagination.PageTotalOf` | src/core/usePagination.ts:52 | `get(data, pageTotalKey, Math.ceil(total / pageSize))`; stated by `Pagination.PageCount`, `Pagination.ZeroPageSize` and `Pagination.TotalsTestScenario` |
| `Pagination.TotalsWithoutData` | src/core/usePagination.ts:51-52 | before any data, `total` and `pageTotal` are 0 |
| `Pagination.TotalsTestScenario` | test/pagination.test.ts:13-49 | 100 items give `total` 100 and `pageTotal` 10 for pages of 10, and 5 for pages of 20 |
| `Pagination.Paginator.constructor` | src/core/usePagination.ts:30-31 | `pageSize` starts at `defaultPageSize` and `pageCurrent` at 1 |
| `Pagination.Paginator.InjectPage` | src/core/usePagination.ts:43-46 | `query` and `params` both get the page keys injected |
| `Pagination.PageKeyTestScenario` | test/pagination.test.ts:51-64 | with `pageCurrentKey: 'pageCurrent'`, the first request carries page 1 under that key and, after `pageCurrent` becomes 2, the next carries page 2 |
| `Pagination.CreatePrecedence` | src/core/usePagination.ts:65-68 | the call site beats newer defaults, which beat older ones; every key is kept; the stored copy equals the merged defaults; `create` chains compose |
| `Pagination.Create` | src/core/usePagination.ts:65 | the factory `create` returns, with the newer defaults on top; stated by `Pagination.CreatePrecedence` |
| `Pagination.StoredDefaults` | src/core/usePagination.ts:68 | the copy stored under `defaultOptionsKey`; stated by `Pagination.CreatePrecedence` |
| `PresetFetch.AssignPrecedence` | src/core/createUseFetch.ts:8 | a call uses the call site's value for every key it gives and the preset's for the others |
| `PresetFetch.AssignIdempotent` | src/core/createUseFetch.ts:8 | calling again with the same options changes nothing more |
| `PresetFetch.CallSiteKeysPersist` | src/core/createUseFetch.ts:8 | a key given at one call keeps its value in every later call that does not give it again |
| `PresetFetch.OmittedOptionsKeepPreset` | src/core/createUseFetch.ts:7-8 | calls without options leave the preset unchanged |
| `PresetFetch.PresetFactory.constructor` | src/core/createUseFetch.ts:4 | the preset is the caller's own options object, not a copy; a fresh `{}` when omitted |
| `PresetFetch.PresetFactory.Call` | src/core/createUseFetch.ts:5-8 | the preset object's properties are updated in place with the call-site options, and `useFetch` receives that same object |
| `PresetFetch.LeakScenario` | src/core/createUseFetch.ts:4-8 | after one call with `immediate: false`, a later call with no options makes no initial request |
| `PresetFetch.SharedPresetScenario` | src/core/createUseFetch.ts:4-8 | two factories built from one options object share it: a call through one with `immediate: false` leaves the caller's object holding that key and makes the other's next call skip its initial request |

## Left out

- Vue reactivity is not modelled: refs, `computed`, `reactive`, `watch` and effect scopes. A value read through `toValue` is a `Reactive` (a ref, computed or getter) resolved through an environment; an object made `reactive()` is an `Obj`, which `toValue` returns unchanged, and only as a watch source (`Fetch.WatchSources`) is one named by identity. A watch list is modelled only as the list of its sources. Re-running `execute` on a change is not modelled.
- ofetch is not modelled beyond the order in which it calls hooks and whether it resolves or rejects: request building, retries (`retry`, `retryDelay`, `retryStatusCodes`), response parsing and `onError`. `$fetch` ends with a `Response` chosen by the caller.
- `Date.now()`, `setTimeout` and `clearTimeout` are replaced by an explicit clock and explicit timer-expiry methods. Timer delays above 2^31-1 ms are not clamped. A NaN delay is not modelled, since durations are integers.
- Promise scheduling is not modelled. Overlapping executions of `execute` and the interleaving of microtasks are out, except for the poller's count of calls in flight.
- `createFilterWrapper` and `noop` (from the filters' `./general`) are not part of this model. A filter's `invoke` is counted as one invocation of the wrapped function.
- `pipe` (`src/core/utils/pipe`) is not part of this model. It is taken to apply its stages left to right.
- `tryOnScopeDispose` is modelled only as the `Dispose` methods it would trigger.
- `ready` is taken as an explicit input of `AsyncData.Executed`. The files disagree here: src/core/useAsyncData.ts:63 gates `execute` on `ctx.optionsComposable.ready`, and test/useAsyncData.test.ts:28-40 passes `ready`, but src/core/ctx.ts:12-45 never puts `ready` into `optionsComposable`. Taken literally, `ready` would then always be undefined and `execute` would never run the request. The model follows the gate as src/core/useAsyncData.ts:63 writes it, with the `ready` value the caller passes.
- `AsyncData.AsError`: `new Error(e)` is modelled as a wrapped value. Its message, `String(e)`, is not computed.
- `useFetch.create` and `defaultOptionsKey` are not part of this model. The tests use them, but `src/core/useFetch.ts` does not define them.
- `Fetch.Executed`: the user's hooks are recorded when called; what they do is not modelled. A non-function, non-nullish hook value throws a TypeError in JavaScript; here it is recorded as called.
- `Ctx.IsJSONSerializable` and `Ctx.IsJSONSerializableAsWritten` read `buffer` and `toJSON` from an object's own fields and from the built-in prototypes of `Date` and the array-buffer views only (`Ctx.ObjectProp`). A `toJSON` or `buffer` inherited from any other class, such as a user class with a `toJSON` method, is not seen, so such an object is judged unserializable and `Ctx.ResolvedBody` leaves it as it is.
- `Ctx.HeaderGet`: `HeadersInit` is modelled as a list of name/value pairs. The `Headers` and record forms, and invalid header names that throw, are left out.
- `General.Lookup` reads only an object's own fields and an array's elements. JavaScript's `current[key]` also reads primitive and inherited properties: `get(res, 'list.length')` gives an array's length, `get('abc', '0')` gives `'a'`, and `toString` is found on every object. The model gives the default for these, and so do `Pagination.TotalOf` and `Pagination.PageTotalOf` for such keys.
- `Pagination.AssignPaginationKey` requires `query` and `params` to be undefined or an object. In JavaScript a null one throws and a string is spread character by character.
- `Pagination.SettingsOf` requires the key options to be strings or absent, as their type says. JavaScript would coerce other values with `String`.
- `Pagination.ToNumber` maps some values to NaN that JavaScript reads as numbers: strings with a sign, a decimal point, an exponent, a hex prefix or surrounding white space, and arrays or objects converted through `toString`.
- `Pagination.Divide` does not track the sign of zero.
- The `useFetch` option that the pagination `create` test passes is not modelled. src/core/usePagination.ts ignores it and calls the imported `useFetch` directly.

## Findings

| source | as written | input that shows it | evidently intended | confidence | as-written member | corrected member |
|---|---|---|---|---|---|---|
| src/core/ctx.ts:116 | `t === null` compares a `typeof` string with null and is never true, so null falls through to `value.buffer` and throws | `isJSONSerializable(null)` | null is reported serializable | high, not executed | `Ctx.IsJSONSerializableAsWritten` | `Ctx.IsJSONSerializable` |
| src/core/useFetch.ts:30-46 | `pending.value = false` runs only after a resolved `$fetch`; a rejection skips it | any `execute()` whose request fails or returns a 404 | `pending` is reset however the request ends, as `useAsyncData`'s `finally` does | high, not executed | `Fetch.ExecutedAsWritten` | `Fetch.Executed` |
| src/core/useFetch.ts:42 | the internal `onRequestError` forwards to the user's `onResponseError`; the user's own `onRequestError` is dropped from the options | options `{ onRequestError: h }` and a network failure: `h` is never called | the user's `onRequestError` is called | high, not executed | `Fetch.RequestErrorHookedAsWritten` | `Fetch.RequestErrorHooked` |
| src/core/useAsyncData.ts:23 | `{ ...options, ...defaultOptions }` lets preset keys override the call site | `create({ immediate: false })` called with `{ immediate: true }` is still not immediate | call-site options override the preset, as `usePagination` merges | medium, not executed | `AsyncData.MergeAsWritten` | `AsyncData.Merge` |

The lemmas `Ctx.JSONSerializableNullFinding`, `Fetch.PendingAfterRejectionFinding`, `Fetch.RequestErrorHookFinding` and `AsyncData.MergePrecedenceFinding` exhibit each discrepancy and prove the corrected behaviour. The rest of the model uses the corrected members:

- `Ctx.ResolvedBody` uses the corrected serializability test.
- `Fetch.FetchRefs` uses the corrected request error hook and rejection.
- `AsyncData.Context` uses the corrected merge.

## Where the code and its tests differ

Where a test in the repository expects something other than what the code does, the model follows the code. The exceptions are the four findings above: the rest of the model uses their corrections. `AsyncData.Context` merges with `AsyncData.Merge`, and `Fetch.FetchRefs` uses the corrected `OnRequestError` and `Reject`.

- test/useFetch.test.ts:28-40 ("ready") expects `execute()` under `ready: false` to leave `data` null. `useFetch` has no ready gate: src/core/ctx.ts:12-45 puts `ready` among the request overrides, which go to `$fetch` with the rest. `Fetch.Executed` and `Fetch.ExecutedAsWritten` therefore have no gate either; only `AsyncData.ReadyGate` models one.
- test/useFetch.test.ts:176-197 expects `error` to be set after a 404. `useFetch` sets `error` only when the request itself fails. A 404, which `$fetch` rejects, leaves `error` untouched and `status` at `success`. `Fetch.ExecutionOutcomeAsWritten` states this for the source and `Fetch.ExecutionOutcome` for the corrected execution.

=== FILE: async_data.dfy ===
/**
 * `useAsyncData` of src/core/useAsyncData.ts.  The four refs a call site
 * owns (`status`, `pending`, `data`, `error`) are the fields of
 * `AsyncDataRefs`, whose methods are proved to follow the functions on
 * `Refs`; the asynchronous producer is an outcome handed to `Settle`.  The
 * wiring (option merge, pipeline, creation and watch sources) is pure.
 */
module AsyncData {
  import opened Wrappers
  import opened JsValues
  import opened General
  import opened Ctx
  import opened Wiring

  // ---------------------------------------------------------------------
  // Merging option bags
  // ---------------------------------------------------------------------

  /**
   * `{ ...options, ...defaultOptions }` as written: the spread puts the
   * preset on top, so a preset key replaces the call-site value of the
   * same key.
   */
  function MergeAsWritten(callSite: Options, preset: Options): (r: Options)
    ensures r.Keys == callSite.Keys + preset.Keys
    ensures forall k :: k in preset ==> r[k] == preset[k]
    ensures forall k :: k in callSite && k !in preset ==> r[k] == callSite[k]
  {
    Spread(callSite, preset)
  }

  /**
   * Options given at the call site are ignored whenever the preset has the
   * same key: a factory made with `immediate: false` cannot be asked for an
   * immediate call.
   */
  lemma MergePrecedenceFinding()
    ensures var callSite := map["immediate" := Bool(true)];
      var preset := map["immediate" := Bool(false)];
      ResolveOptions(MergeAsWritten(callSite, preset)).composable.immediate == Bool(false)
      && ResolveOptions(Merge(callSite, preset)).composable.immediate == Bool(true)
  {
    var callSite := map["immediate" := Bool(true)];
    var preset := map["immediate" := Bool(false)];
    assert Prop(MergeAsWritten(callSite, preset), "immediate") == Bool(false);
    assert Prop(Merge(callSite, preset), "immediate") == Bool(true);
  }

  /**
   * The intended merge, an object spread `{ ...preset, ...callSite }`: the
   * preset lies beneath the call-site options.
   */
  function Merge(callSite: Options, preset: Options): (r: Options)
    ensures r.Keys == callSite.Keys + preset.Keys
    ensures forall k :: k in callSite ==> r[k] == callSite[k]
    ensures forall k :: k in preset && k !in callSite ==> r[k] == preset[k]
  {
    Spread(preset, callSite)
  }

  /** `createUseAsyncData({ ...defaultOptions, ...newDefaultOptions })`: the same spread, the newer defaults on top. */
  function Create(defaults: Options, newDefaults: Options): (r: Options)
    ensures r.Keys == defaults.Keys + newDefaults.Keys
    ensures forall k :: k in newDefaults ==> r[k] == newDefaults[k]
    ensures forall k :: k in defaults && k !in newDefaults ==> r[k] == defaults[k]
  {
    Spread(defaults, newDefaults)
  }

  /**
   * Presets compose along a chain of `create` calls, and with the intended
   * merge the call site overrides every layer: each key comes from the
   * nearest layer that has it.
   */
  lemma PresetLayers(d1: Options, d2: Options, callSite: Options, k: string)
    ensures k in callSite ==> Merge(callSite, Create(d1, d2))[k] == callSite[k]
    ensures k !in callSite && k in d2 ==> Merge(callSite, Create(d1, d2))[k] == d2[k]
    ensures k !in callSite && k !in d2 && k in d1 ==> Merge(callSite, Create(d1, d2))[k] == d1[k]
    ensures k !in callSite && k !in d2 && k !in d1 ==> k !in Merge(callSite, Create(d1, d2))
  {
  }

  /** The create test: `create({ immediate: false })` then `.create({ ready })`, called with no options. */
  lemma CreateTestScenario(ready: Value)
    ensures var preset := Create(Create(map[], map["immediate" := Bool(false)]), map["ready" := ready]);
      && Merge(map[], preset) == map["immediate" := Bool(false), "ready" := ready]
      && ResolveOptions(Merge(map[], preset)).composable.immediate == Bool(false)
  {
    var preset := Create(Create(map[], map["immediate" := Bool(false)]), map["ready" := ready]);
    assert Merge(map[], preset).Keys == {"immediate", "ready"};
  }

  /** The context a call site works with. */
  function Context(callSite: Options, preset: Options): Resolved {
    ResolveOptions(Merge(callSite, preset))
  }

  // ---------------------------------------------------------------------
  // Wiring
  // ---------------------------------------------------------------------

  /** The first `pipe` stage: debounce when `debounceInterval` is defined. */
  function DebounceStage(c: Composable): Pipeline -> Pipeline {
    r => if c.debounceInterval != Undef then Debounced(r, c.debounceInterval) else r
  }

  /** The second `pipe` stage: throttle when `throttleInterval` is defined. */
  function ThrottleStage(c: Composable): Pipeline -> Pipeline {
    r => if c.throttleInterval != Undef then Throttled(r, c.throttleInterval) else r
  }

  /** `pipe(f, g, ...)(x)`: the stages applied left to right. */
  function Pipe(stages: seq<Pipeline -> Pipeline>, x: Pipeline): Pipeline
    decreases |stages|
  {
    if stages == [] then x else Pipe(stages[1..], stages[0](x))
  }

  /** `_execute`: debounce inside throttle, each only when its interval is defined. */
  function ExecutePipeline(c: Composable): (p: Pipeline)
    ensures Layers(p) == ExpectedLayers(c)
  {
    var stages := [DebounceStage(c), ThrottleStage(c)];
    var d := DebounceStage(c)(Direct);
    assert Pipe(stages, Direct) == ThrottleStage(c)(d) by {
      assert stages[0] == DebounceStage(c) && stages[1..] == [ThrottleStage(c)];
      assert Pipe(stages, Direct) == Pipe([ThrottleStage(c)], d);
      assert [ThrottleStage(c)][1..] == [];
      assert Pipe([ThrottleStage(c)], d) == Pipe([], ThrottleStage(c)(d));
    }
    assert Layers(d) == if c.debounceInterval != Undef then [DebounceLayer(c.debounceInterval)] else [];
    assert Layers(ThrottleStage(c)(d)) == ExpectedLayers(c) by {
      if c.throttleInterval != Undef {
        assert Layers(ThrottleStage(c)(d)) == [ThrottleLayer(c.throttleInterval)] + Layers(d);
      }
    }
    Pipe(stages, Direct)
  }

  /** The sources whose change calls `execute`: none for `watch: false`, otherwise `toArray(watch || [])`. */
  function WatchSources(c: Composable): (r: seq<Value>)
    ensures c.watch == Bool(false) ==> r == []
    ensures c.watch.Arr? ==> r == c.watch.items
    ensures !Truthy(c.watch) ==> r == []
    ensures Truthy(c.watch) && !c.watch.Arr? ==> r == [c.watch]
  {
    if c.watch == Bool(false) then [] else ToArray(if Truthy(c.watch) then c.watch else Arr([]))
  }

  /** With no `watch` option nothing is watched. */
  lemma DefaultWatchesNothing(callSite: Options, preset: Options)
    requires "watch" !in callSite && "watch" !in preset
    ensures WatchSources(Context(callSite, preset).composable) == []
  {
  }

  // ---------------------------------------------------------------------
  // The request state
  // ---------------------------------------------------------------------

  /** What the producer does: resolve with a value, or throw one (`isError`: it is `instanceof Error`). */
  datatype Outcome = Returned(value: Value) | Threw(value: Value, isError: bool)

  /** What `error` holds: the thrown Error itself, or `new Error(value)` around anything else. */
  datatype ErrorValue = Caught(value: Value) | Wrapped(value: Value)

  datatype Refs = Refs(status: Status, pending: bool, data: Value, error: Option<ErrorValue>)

  const Initial: Refs := Refs(Idle, false, Null, None)

  /** `pending` is on exactly while a request is running. */
  predicate Valid(s: Refs) {
    s.pending <==> s.status == Pending
  }

  function AsError(value: Value, isError: bool): ErrorValue {
    if isError then Caught(value) else Wrapped(value)
  }

  /** The `try` block up to `await request()` */
  function Started(s: Refs): Refs {
    s.(status := Pending, pending := true)
  }

  /** The rest of `executeRequest` once the producer has settled, `finally` included. */
  function Settled(s: Refs, o: Outcome): Refs {
    match o
    case Returned(v) => s.(data := v, status := Success, pending := false)
    case Threw(v, e) => s.(error := Some(AsError(v, e)), status := Error, pending := false)
  }

  /** What `executeRequest` rejects with: nothing on success, the stored error on failure. */
  function Rethrown(o: Outcome): Option<ErrorValue> {
    match o
    case Returned(_) => None
    case Threw(v, e) => Some(AsError(v, e))
  }

  /**
   * A request keeps `pending` in step with `status`, and its outcome
   * decides the rest: on success `data` is the result and `error` stays as
   * it was; on failure `data` stays, `error` is the thrown value (wrapped
   * when it is not an Error) and exactly that value is re-thrown.
   */
  lemma RequestLifecycle(s: Refs, o: Outcome)
    requires Valid(s)
    ensures Valid(Started(s)) && Started(s).pending
    ensures Valid(Settled(Started(s), o)) && !Settled(Started(s), o).pending
    ensures o.Returned? ==>
      Settled(Started(s), o) == Refs(Success, false, o.value, s.error) && Rethrown(o).None?
    ensures o.Threw? ==>
      && Settled(Started(s), o) == Refs(Error, false, s.data, Rethrown(o))
      && (o.isError ==> Rethrown(o) == Some(Caught(o.value)))
      && (!o.isError ==> Rethrown(o) == Some(Wrapped(o.value)))
  {
  }

  /**
   * `execute` through an unwrapped pipeline: with `ready` falsy it resolves
   * at once without running the request or touching the refs.
   */
  function Executed(s: Refs, ready: Value, o: Outcome): (Refs, Option<ErrorValue>) {
    if Truthy(ready) then (Settled(Started(s), o), Rethrown(o)) else (s, None)
  }

  lemma ReadyGate(s: Refs, ready: Value, o: Outcome)
    ensures !Truthy(ready) ==> Executed(s, ready, o) == (s, None)
    ensures Truthy(ready) ==> Executed(s, ready, o).0.status != Idle && !Executed(s, ready, o).0.pending
  {
  }

  /** The ready test: nothing happens while `ready` is false; once it is true the data arrives. */
  lemma ReadyTestScenario()
    ensures var (s1, t1) := Executed(Initial, Bool(false), Returned(Str("ok")));
      var (s2, t2) := Executed(s1, Bool(true), Returned(Str("ok")));
      s1.data == Null && s1.status == Idle && t1.None? && s2.data == Str("ok") && s2.status == Success && t2.None?
  {
  }

  /** The error tests: `execute` rejects, and the value it rejects with is the one in `error`. */
  lemma ErrorTestScenario(thrown: Value)
    ensures var (s, t) := Executed(Initial, Bool(true), Threw(thrown, true));
      t.Some? && s.error == t && s.status == Error && s.data == Null
  {
  }

  /** The refs of one call site. */
  class AsyncDataRefs {
    var status: Status
    var pending: bool
    var data: Value
    var error: Option<ErrorValue>

    function Current(): Refs
      reads this
    {
      Refs(status, pending, data, error)
    }

    constructor ()
      ensures Current() == Initial
    {
      status, pending, data, error := Idle, false, Null, None;
    }

    method Start()
      modifies this
      ensures Current() == Started(old(Current()))
    {
      status := Pending;
      pending := true;
    }

    /** The producer settled with `o`; `thrown` is what `executeRequest` rejects with. */
    method Settle(o: Outcome) returns (thrown: Option<ErrorValue>)
      modifies this
      ensures Current() == Settled(old(Current()), o)
      ensures thrown == Rethrown(o)
    {
      thrown := None;
      match o {
        case Returned(v) =>
          data := v;
          status := Success;
        case Threw(v, isError) =>
          error := Some(if isError then Caught(v) else Wrapped(v));
          status := Error;
          thrown := error;
      }
      pending := false;
    }

    /** `execute()` with `ready` already resolved to its value, through an unwrapped pipeline. */
    method Execute(ready: Value, o: Outcome) returns (thrown: Option<ErrorValue>)
      modifies this
      ensures (Current(), thrown) == Executed(old(Current()), ready, o)
    {
      thrown := None;
      if Truthy(ready) {
        Start();
        thrown := Settle(o);
      }
    }
  }
}

=== FILE: create_use_fetch.dfy ===
/**
 * `createUseFetch` of src/core/createUseFetch.ts: a `useFetch` bound to a
 * preset option object.  Every call merges its own options into that very
 * object with `Object.assign`, so the preset is state shared with whoever
 * holds the object: `PresetFactory` keeps a reference to it, and `Assigned`
 * and `AfterCalls` say what the calls make of its properties.
 */
module PresetFetch {
  import opened Wrappers
  import opened JsValues
  import opened Ctx
  import General
  import Fetch
  import Wiring

  /** `Object.assign(target, source)`: every key of the source overwrites the target's, `undefined` included. */
  function Assigned(target: Options, source: Options): Options {
    Spread(target, source)
  }

  /**
   * The options a call uses: the call site's value for every key it gives,
   * the preset's for every other key.
   */
  lemma AssignPrecedence(preset: Options, callSite: Options, k: string)
    ensures Assigned(preset, callSite).Keys == preset.Keys + callSite.Keys
    ensures k in callSite ==> Assigned(preset, callSite)[k] == callSite[k]
    ensures k !in callSite && k in preset ==> Assigned(preset, callSite)[k] == preset[k]
  {
  }

  /** Calling again with the same options changes nothing more. */
  lemma AssignIdempotent(preset: Options, callSite: Options)
    ensures Assigned(Assigned(preset, callSite), callSite) == Assigned(preset, callSite)
  {
  }

  /** The preset after a sequence of calls, each with its (possibly omitted) options. */
  function AfterCalls(preset: Options, calls: seq<Option<Options>>): Options
    decreases |calls|
  {
    if calls == [] then preset
    else AfterCalls(Assigned(preset, calls[0].GetOr(map[])), calls[1..])
  }

  /**
   * A key given at one call keeps that call's value in every later call
   * that does not give it again: call-site options leak into later calls
   * of the same factory.
   */
  lemma {:induction false} CallSiteKeysPersist(preset: Options, calls: seq<Option<Options>>, k: string, v: Value)
    requires k in preset && preset[k] == v
    requires forall i :: 0 <= i < |calls| ==> k !in calls[i].GetOr(map[])
    ensures k in AfterCalls(preset, calls) && AfterCalls(preset, calls)[k] == v
    decreases |calls|
  {
    if calls != [] {
      var rest := calls[1..];
      assert forall i :: 0 <= i < |rest| ==> rest[i] == calls[i + 1];
      CallSiteKeysPersist(Assigned(preset, calls[0].GetOr(map[])), rest, k, v);
    }
  }

  /** Omitted options leave the preset as it is. */
  lemma {:induction false} OmittedOptionsKeepPreset(preset: Options, n: nat)
    ensures AfterCalls(preset, seq(n, _ => None)) == preset
    decreases n
  {
    if n > 0 {
      var calls: seq<Option<Options>> := seq(n, _ => None);
      assert calls[1..] == seq(n - 1, _ => None);
      assert Assigned(preset, calls[0].GetOr(map[])) == preset;
      OmittedOptionsKeepPreset(preset, n - 1);
    }
  }

  /**
   * The function `createUseFetch` returns, with the preset it captured: the
   * caller's own object, or a fresh `{}` when the options are omitted.
   * Factories built from one object share it, and the caller sees every
   * call's options in it.
   */
  class PresetFactory {
    const preset: General.JsObject

    /** `createUseFetch(options = {})` */
    constructor (options: Option<General.JsObject>)
      ensures options.Some? ==> preset == options.value
      ensures options.None? ==> fresh(preset) && preset.props == map[]
    {
      if options.Some? {
        preset := options.value;
      } else {
        preset := new General.JsObject(map[]);
      }
    }

    /**
     * One call: the call-site options (`{}` when omitted) are assigned into
     * the preset in place, and `useFetch` receives that same object.
     */
    method Call(callSite: Option<Options>) returns (used: General.JsObject)
      modifies preset
      ensures preset.props == Assigned(old(preset.props), callSite.GetOr(map[]))
      ensures used == preset
    {
      preset.props := Assigned(preset.props, callSite.GetOr(map[]));
      used := preset;
    }
  }

  /**
   * One call with `immediate: false` makes a later call without options
   * skip its initial request too, because the preset now holds that key.
   */
  method LeakScenario()
  {
    var options0 := new General.JsObject(map["baseURL" := Str("/api")]);
    var factory := new PresetFactory(Some(options0));
    var first := factory.Call(Some(map["immediate" := Bool(false)]));
    var second := factory.Call(None);
    var options := second.props;
    assert options["immediate"] == Bool(false) && options["baseURL"] == Str("/api");
    Fetch.CreationRequests(options);
    assert Defaulted(Prop(options, "immediate"), Bool(true)) == Bool(false);
    assert Wiring.CreationCalls(Wiring.StartupPlan(ResolveOptions(options).composable)) == 0;
  }

  /**
   * Two factories built from one options object share it: a call through
   * the first with `immediate: false` makes a call through the second skip
   * its initial request, and the caller's object now holds the key.
   */
  method SharedPresetScenario()
  {
    var o := new General.JsObject(map["baseURL" := Str("/api")]);
    var a := new PresetFactory(Some(o));
    var b := new PresetFactory(Some(o));
    var first := a.Call(Some(map["immediate" := Bool(false)]));
    var second := b.Call(None);
    assert second == o && o.props["immediate"] == Bool(false);
    var options := second.props;
    assert options["immediate"] == Bool(false);
    Fetch.CreationRequests(options);
    assert Wiring.CreationCalls(Wiring.StartupPlan(ResolveOptions(options).composable)) == 0;
  }
}

=== FILE: ctx.dfy ===
/**
 * The request context of src/core/ctx.ts: splitting the caller's option
 * bag into orchestration options, transport options and reactive request
 * overrides, and rewriting a JSON-serializable body as form data when the
 * content type asks for it.
 */
module Ctx {
  import opened Wrappers
  import opened JsValues

  /** An option bag: property name to value. */
  type Options = map<string, Value>

  /** `options[key]`: undefined when the key is absent. */
  function Prop(options: Options, key: string): Value {
    if key in options then options[key] else Undef
  }

  /** The object spread `{ ...under, ...over }`: every key of `over` replaces that of `under`. */
  function Spread(under: Options, over: Options): (r: Options)
    ensures r.Keys == under.Keys + over.Keys
    ensures forall k :: k in over ==> r[k] == over[k]
    ensures forall k :: k in under && k !in over ==> r[k] == under[k]
  {
    under + over
  }

  /** A destructuring default `{ key = d }`: used when the property is undefined. */
  function Defaulted(v: Value, d: Value): Value {
    if v.Undef? then d else v
  }

  const OrchestrationKeys: set<string> :=
    {"immediate", "watch", "pollingInterval", "debounceInterval", "throttleInterval"}

  /** The transport options handed to `$fetch` unchanged, in the order the source lists them. */
  const TransportKeyList: seq<string> := [
    "cache", "credentials", "duplex", "ignoreResponseError", "integrity", "keepalive",
    "mode", "onRequest", "onRequestError", "onResponse", "onResponseError",
    "parseResponse", "priority", "redirect", "referrer", "referrerPolicy",
    "responseType", "retry", "retryDelay", "retryStatusCodes", "signal", "timeout", "window"
  ]

  const TransportKeys: set<string> := set k | k in TransportKeyList

  /** `optionsComposable`: what drives execution rather than the request itself. */
  datatype Composable = Composable(
    immediate: Value,
    watch: Value,
    pollingInterval: Value,
    debounceInterval: Value,
    throttleInterval: Value)

  /** What `resolveOptions` returns (its `resolveBody` member is `ResolvedBody` below). */
  datatype Resolved = Resolved(
    composable: Composable,
    watchOptions: Options,
    fetchOptions: Options)

  /** `resolveOptions(options)`, reached through `createContext`. */
  function ResolveOptions(options: Options): (r: Resolved)
    ensures r.composable.immediate == Defaulted(Prop(options, "immediate"), Bool(true))
    ensures r.composable.watch == Defaulted(Prop(options, "watch"), Arr([]))
    ensures r.composable.pollingInterval == Prop(options, "pollingInterval")
    ensures r.composable.debounceInterval == Prop(options, "debounceInterval")
    ensures r.composable.throttleInterval == Prop(options, "throttleInterval")
    ensures r.fetchOptions.Keys == TransportKeys
    ensures forall k :: k in TransportKeys ==> r.fetchOptions[k] == Prop(options, k)
    ensures r.watchOptions.Keys == options.Keys - OrchestrationKeys - TransportKeys
    ensures forall k :: k in r.watchOptions ==> r.watchOptions[k] == options[k]
  {
    var composable := Composable(
      Defaulted(Prop(options, "immediate"), Bool(true)),
      Defaulted(Prop(options, "watch"), Arr([])),
      Prop(options, "pollingInterval"),
      Prop(options, "debounceInterval"),
      Prop(options, "throttleInterval"));
    var watchOptions := map k | k in options && k !in OrchestrationKeys && k !in TransportKeys :: options[k];
    var fetchOptions := map k | k in TransportKeys :: Prop(options, k);
    Resolved(composable, watchOptions, fetchOptions)
  }

  /**
   * The three parts split the option bag: every key the caller gave lands in
   * exactly one of them with its value (orchestration values up to their
   * defaults), and nothing else reaches the reactive overrides.
   */
  lemma ResolveOptionsPartition(options: Options)
    ensures OrchestrationKeys !! TransportKeys
    ensures ResolveOptions(options).watchOptions.Keys !! OrchestrationKeys
    ensures ResolveOptions(options).watchOptions.Keys !! ResolveOptions(options).fetchOptions.Keys
    ensures forall k :: k in options ==>
              k in OrchestrationKeys
              || (k in ResolveOptions(options).fetchOptions && ResolveOptions(options).fetchOptions[k] == options[k])
              || (k in ResolveOptions(options).watchOptions && ResolveOptions(options).watchOptions[k] == options[k])
  {
    assert OrchestrationKeys !! TransportKeys by {
      forall k | k in TransportKeyList ensures k !in OrchestrationKeys {
      }
    }
  }

  /** A transport option the caller left out is still passed on, as undefined. */
  lemma TransportKeyAlwaysPresent(options: Options, k: string)
    requires k in TransportKeyList && k !in options
    ensures k in ResolveOptions(options).fetchOptions
    ensures ResolveOptions(options).fetchOptions[k] == Undef
  {
  }

  // ---------------------------------------------------------------------
  // Headers and the content type
  // ---------------------------------------------------------------------

  /** A `HeadersInit` as name/value pairs in order (undefined is the empty list). */
  type Headers = seq<(string, string)>

  function LowerChar(c: char): char {
    if 'A' <= c <= 'Z' then (c as int + 32) as char else c
  }

  /** ASCII lower case, as header names are compared. */
  function Lower(s: string): (r: string)
    ensures |r| == |s|
    ensures forall i :: 0 <= i < |s| ==> r[i] == LowerChar(s[i])
  {
    if s == [] then [] else [LowerChar(s[0])] + Lower(s[1..])
  }

  /** The values of every header whose name matches `lname`, in order. */
  function HeaderValues(headers: Headers, lname: string): seq<string> {
    if headers == [] then []
    else (if Lower(headers[0].0) == lname then [headers[0].1] else []) + HeaderValues(headers[1..], lname)
  }

  function JoinComma(vs: seq<string>): string
    requires |vs| > 0
  {
    if |vs| == 1 then vs[0] else vs[0] + ", " + JoinComma(vs[1..])
  }

  /** `new Headers(init).get(name)`: case-insensitive; several values are joined with ", "; null when absent. */
  function HeaderGet(headers: Headers, name: string): (r: Option<string>)
    ensures r.None? <==> HeaderValues(headers, Lower(name)) == []
  {
    var vs := HeaderValues(headers, Lower(name));
    if vs == [] then None else Some(JoinComma(vs))
  }

  /** `getContentType`: four spellings of the name, tried in turn with `??`. */
  function GetContentType(headers: Headers): Option<string> {
    match HeaderGet(headers, "Content-Type")
    case Some(v) => Some(v)
    case None =>
      match HeaderGet(headers, "content-type")
      case Some(v) => Some(v)
      case None =>
        match HeaderGet(headers, "Content-type")
        case Some(v) => Some(v)
        case None => HeaderGet(headers, "content-Type")
  }

  /** Because lookup ignores case, the four tries are one case-insensitive lookup. */
  lemma GetContentTypeIsLookup(headers: Headers)
    ensures GetContentType(headers) == HeaderGet(headers, "content-type")
  {
    LowerContentType1();
    LowerContentType2();
    LowerContentType3();
    LowerContentType4();
    SameLowerSameHeader(headers, "Content-Type", "content-type");
    SameLowerSameHeader(headers, "Content-type", "content-type");
    SameLowerSameHeader(headers, "content-Type", "content-type");
  }

  lemma SameLowerSameHeader(headers: Headers, a: string, b: string)
    requires Lower(a) == Lower(b)
    ensures HeaderGet(headers, a) == HeaderGet(headers, b)
  {
  }

  lemma LowerContentType1() ensures Lower("Content-Type") == "content-type" { LowerSpelling("Content-Type"); }
  lemma LowerContentType2() ensures Lower("Content-type") == "content-type" { LowerSpelling("Content-type"); }
  lemma LowerContentType3() ensures Lower("content-Type") == "content-type" { LowerSpelling("content-Type"); }
  lemma LowerContentType4() ensures Lower("content-type") == "content-type" { LowerSpelling("content-type"); }

  lemma LowerSpelling(s: string)
    requires |s| == |"content-type"|
    requires forall i :: 0 <= i < |s| ==> LowerChar(s[i]) == "content-type"[i]
    ensures Lower(s) == "content-type"
  {
  }

  /** `s.includes(sub)`: `sub` occurs in `s` at some position. */
  predicate Includes(s: string, sub: string) {
    (|sub| <= |s| && s[..|sub|] == sub) || (s != [] && Includes(s[1..], sub))
  }

  const FormContentType: string := "application/x-www-form-urlencoded"

  // ---------------------------------------------------------------------
  // isJSONSerializable
  // ---------------------------------------------------------------------

  /** `typeof v === 'object'` (which includes null). */
  predicate IsObjectType(v: Value) {
    v.Null? || v.Arr? || v.Obj? || v.Form? || v.Reactive?
  }

  /**
   * `isJSONSerializable` as written: `None` stands for the TypeError thrown by
   * `value.buffer` when the value is null, because `t === null` compares a
   * `typeof` string with null and is never true.
   */
  function IsJSONSerializableAsWritten(v: Value): (r: Option<bool>)
  {
    if v.Undef? then Some(false)
    else if v.Str? || v.Num? || v.NaN? || v.Infinity? || v.Bool? then Some(true)
    else if !IsObjectType(v) then Some(false)
    else if v.Arr? then Some(true)
    else if v.Null? then None
    else Some(ObjectSerializable(v))
  }

  /** Built-in constructors whose prototype has a `buffer` accessor: the typed arrays, `DataView` and Node's `Buffer`. */
  const BufferViews: set<string> := {
    "Int8Array", "Uint8Array", "Uint8ClampedArray", "Int16Array", "Uint16Array",
    "Int32Array", "Uint32Array", "Float32Array", "Float64Array",
    "BigInt64Array", "BigUint64Array", "DataView", "Buffer"}

  /**
   * `value[name]` on an object built by `ctor`: an own field first, then
   * what the built-in prototypes provide for the two properties
   * `isJSONSerializable` reads: `Date.prototype.toJSON`, and the
   * `ArrayBuffer` behind an array-buffer view.
   */
  function ObjectProp(ctor: string, fields: Options, name: string): (r: Value)
    ensures name in fields ==> r == fields[name]
    ensures name !in fields && name == "toJSON" ==> (r.Func? <==> ctor == "Date")
    ensures name !in fields && name == "buffer" ==> (Truthy(r) <==> ctor in BufferViews)
  {
    if name in fields then fields[name]
    else if name == "toJSON" && ctor == "Date" then Func("Date.prototype.toJSON")
    else if name == "buffer" && ctor in BufferViews then Obj("ArrayBuffer", map[])
    else Undef
  }

  /**
   * The last two tests, on a non-null, non-array object: no truthy `buffer`,
   * and a plain `Object` constructor or a `toJSON` function, each read as
   * `ObjectProp` does.  A form and a Vue ref or computed have their own
   * constructor and neither property.
   */
  predicate ObjectSerializable(v: Value)
    requires IsObjectType(v) && !v.Null? && !v.Arr?
  {
    match v
    case Obj(ctor, fields) =>
      !Truthy(ObjectProp(ctor, fields, "buffer")) && (ctor == "Object" || ObjectProp(ctor, fields, "toJSON").Func?)
    case _ => false
  }

  /** `isJSONSerializable` with null accepted, as the `t === null` test intends. */
  function IsJSONSerializable(v: Value): (r: bool)
    ensures v.Undef? || v.Func? ==> !r
    ensures v.Null? || v.Str? || v.Num? || v.NaN? || v.Infinity? || v.Bool? || v.Arr? ==> r
    ensures v.Form? || v.Reactive? ==> !r
    ensures v.Obj? ==> (r <==> !Truthy(ObjectProp(v.ctor, v.fields, "buffer"))
                               && (v.ctor == "Object" || ObjectProp(v.ctor, v.fields, "toJSON").Func?))
  {
    if v.Null? then true else IsJSONSerializableAsWritten(v).value
  }

  /**
   * Inherited properties decide for built-in objects: a `Date` is
   * serializable through `Date.prototype.toJSON`, a typed array or
   * `DataView` is not because of its `buffer`, and an own `toJSON`
   * function makes an instance of any other class serializable.
   */
  lemma BuiltInPrototypes(ctor: string, fields: Options)
    ensures IsJSONSerializable(Obj("Date", map[]))
    ensures ctor in BufferViews && "buffer" !in fields ==> !IsJSONSerializable(Obj(ctor, fields))
    ensures ctor !in BufferViews && "buffer" !in fields && Prop(fields, "toJSON").Func? ==>
      IsJSONSerializable(Obj(ctor, fields))
  {
  }

  /** As written, null throws; the corrected test accepts it and agrees everywhere else. */
  lemma JSONSerializableNullFinding(v: Value)
    ensures IsJSONSerializableAsWritten(Null).None?
    ensures IsJSONSerializable(Null)
    ensures !v.Null? ==> IsJSONSerializableAsWritten(v) == Some(IsJSONSerializable(v))
  {
  }

  // ---------------------------------------------------------------------
  // resolveBody
  // ---------------------------------------------------------------------

  /** The conditions under which `resolveBody` rewrites a body. */
  predicate RewritesBody(body: Value, headers: Headers) {
    && Truthy(body)
    && GetContentType(headers).Some?
    && GetContentType(headers).value != ""
    && Includes(GetContentType(headers).value, FormContentType)
    && IsJSONSerializable(body)
  }

  /** The body after `resolveBody`. */
  function ResolvedBody(body: Value, headers: Headers): Value {
    if RewritesBody(body, headers) then Form(body) else body
  }

  /**
   * The body is replaced by its form encoding exactly when it is truthy, a
   * non-empty content type mentions form encoding and the body is
   * JSON-serializable; otherwise it is untouched.  A second pass changes
   * nothing, since a form is not JSON-serializable.
   */
  lemma ResolvedBodySpec(body: Value, headers: Headers)
    ensures ResolvedBody(body, headers) != body <==> RewritesBody(body, headers)
    ensures RewritesBody(body, headers) ==> ResolvedBody(body, headers) == Form(body)
    ensures ResolvedBody(ResolvedBody(body, headers), headers) == ResolvedBody(body, headers)
  {
    if RewritesBody(body, headers) {
      assert Form(body) != body;
    }
  }

  /** Under a form content type, a `Date` body is form-encoded, since its inherited `toJSON` makes it serializable. */
  lemma DateBodyFormEncoded(headers: Headers)
    requires GetContentType(headers) == Some(FormContentType)
    ensures ResolvedBody(Obj("Date", map[]), headers) == Form(Obj("Date", map[]))
  {
    var date := Obj("Date", map[]);
    IncludesSelf(FormContentType);
    assert IsJSONSerializable(date) by { BuiltInPrototypes("Date", map[]); }
    assert RewritesBody(date, headers);
  }

  lemma IncludesSelf(s: string)
    ensures Includes(s, s)
  {
    assert s[..|s|] == s;
  }

  /** For the bodies `resolveBody` tests, the as-written and corrected serializability tests agree. */
  lemma ResolvedBodyUnaffectedByFinding(body: Value)
    requires Truthy(body)
    ensures IsJSONSerializableAsWritten(body) == Some(IsJSONSerializable(body))
  {
  }

  /** `content.options` of an ofetch request context, as far as `resolveBody` touches it. */
  class RequestOptions {
    var body: Value
    var headers: Headers

    constructor (body: Value, headers: Headers)
      ensures this.body == body && this.headers == headers
    {
      this.body := body;
      this.headers := headers;
    }

    /** `resolveBody(content)`: replaces the body in place when it should be form-encoded. */
    method ResolveBody()
      modifies this
      ensures headers == old(headers)
      ensures body == ResolvedBody(old(body), old(headers))
    {
      if !Truthy(body) {
        return;
      }
      var contentType := GetContentType(headers);
      if contentType.None? || contentType.value == "" {
        return;
      }
      if !Includes(contentType.value, FormContentType) {
        return;
      }
      if !IsJSONSerializable(body) {
        return;
      }
      body := Form(body);
    }
  }
}

=== FILE: debounce.dfy ===
/**
 * The debounce filter of src/core/utils/useDebounceFn.ts.  The closure
 * variables `timer`, `maxTimer` and `lastRejector` become the fields of a
 * `State`; `Call`, `TimerFired` and `MaxTimerFired` say how one call and the
 * expiry of each timer change it, and `DebounceFilter` is the imperative
 * filter proved to follow them.  Invocations of the wrapped function are
 * counted; the n-th invocation is number n - 1.
 */
module Debounce {
  import opened Wrappers
  import opened Timers

  /** `useDebounceFn`'s default delay, in milliseconds. */
  const DefaultDelay: int := 200

  datatype State = State(
    timer: Handle,
    maxTimer: Option<Timer>,
    lastRejector: Option<nat>,   // the promise `lastRejector` settles; None is `noop`
    promises: seq<Settlement>,   // one per call, in call order
    invocations: nat)

  const Initial: State := State(NoHandle, None, None, [], 0)

  /** What every reachable state satisfies. */
  predicate Valid(s: State) {
    && (s.timer.Live? ==> s.timer.timer.owner < |s.promises|)
    && (s.maxTimer.Some? ==> s.maxTimer.value.owner < |s.promises|)
    && (s.timer.NoHandle? ==> s.maxTimer.None? && s.lastRejector.None?)
    && (s.lastRejector.Some? ==> s.lastRejector.value < |s.promises|)
    && (forall i :: 0 <= i < |s.promises| && s.promises[i].Follows? ==> s.promises[i].invocation < s.invocations)
  }

  /** `lastRejector(); lastRejector = noop`. */
  function CancelLast(s: State, rejectOnCancel: bool): State {
    match s.lastRejector
    case None => s
    case Some(p) => s.(promises := Settle(s.promises, p, Cancelled(rejectOnCancel)), lastRejector := None)
  }

  /** `if (timer) _clearTimeout(timer)`: the variable keeps the (now dead) id. */
  function ClearTimer(s: State, rejectOnCancel: bool): State {
    if s.timer.NoHandle? then s else CancelLast(s.(timer := Spent), rejectOnCancel)
  }

  /** The test that sends a call straight through. */
  predicate IsImmediate(duration: int, maxWait: Option<int>) {
    duration <= 0 || (maxWait.Some? && maxWait.value <= 0)
  }

  /**
   * One call of the filter at time `now`, with the delay and `maxWait` read
   * at that moment.  The call's promise is the one appended to `promises`.
   */
  function Call(s: State, now: nat, duration: int, maxWait: Option<int>, rejectOnCancel: bool): State {
    var s1 := ClearTimer(s, rejectOnCancel);
    if IsImmediate(duration, maxWait) then
      var s2 := if s1.maxTimer.Some? then CancelLast(s1, rejectOnCancel).(maxTimer := None) else s1;
      s2.(promises := s2.promises + [Follows(s2.invocations)], invocations := s2.invocations + 1)
    else
      var p := |s1.promises|;
      var maxTimer := if maxWait.Some? && s1.maxTimer.None? then Some(Timer(now + maxWait.value, p)) else s1.maxTimer;
      s1.(timer := Live(Timer(now + duration, p)), maxTimer := maxTimer,
          lastRejector := Some(p), promises := s1.promises + [Pending])
  }

  /** The regular timer expires: cancel the max timer, invoke, resolve the owner's promise. */
  function TimerFired(s: State, now: nat, rejectOnCancel: bool): State
    requires s.timer.Live? && s.timer.timer.due <= now
  {
    var p := s.timer.timer.owner;
    var s1 := s.(timer := Spent);
    var s2 := if s1.maxTimer.Some? then CancelLast(s1, rejectOnCancel) else s1;
    s2.(maxTimer := None, invocations := s2.invocations + 1,
        promises := Settle(s2.promises, p, Follows(s2.invocations)))
  }

  /** The max-wait timer expires: cancel the regular timer, clear itself, invoke. */
  function MaxTimerFired(s: State, now: nat, rejectOnCancel: bool): State
    requires s.maxTimer.Some? && s.maxTimer.value.due <= now
  {
    var p := s.maxTimer.value.owner;
    var s1 := ClearTimer(s, rejectOnCancel);
    s1.(maxTimer := None, invocations := s1.invocations + 1,
        promises := Settle(s1.promises, p, Follows(s1.invocations)))
  }

  // ---------------------------------------------------------------------
  // Properties of single steps
  // ---------------------------------------------------------------------

  lemma CancelLastKeeps(s: State, roc: bool)
    requires Valid(s)
    ensures Valid(CancelLast(s, roc)) && CancelLast(s, roc).lastRejector.None?
    ensures Settles(s.promises, CancelLast(s, roc).promises)
    ensures CancelLast(s, roc).invocations == s.invocations
  {
  }

  lemma ClearTimerKeeps(s: State, roc: bool)
    requires Valid(s)
    ensures Valid(ClearTimer(s, roc))
    ensures Settles(s.promises, ClearTimer(s, roc).promises)
    ensures !ClearTimer(s, roc).timer.Live?
  {
    if !s.timer.NoHandle? {
      CancelLastKeeps(s.(timer := Spent), roc);
    }
  }

  /**
   * Every step keeps the invariant, never changes a settled promise (so the
   * cancellation through `lastRejector` settles a promise at most once), and
   * never lowers the invocation count.
   */
  lemma CallKeepsValid(s: State, now: nat, duration: int, maxWait: Option<int>, roc: bool)
    requires Valid(s)
    ensures Valid(Call(s, now, duration, maxWait, roc))
    ensures Settles(s.promises, Call(s, now, duration, maxWait, roc).promises)
    ensures Call(s, now, duration, maxWait, roc).invocations >= s.invocations
  {
    ClearTimerKeeps(s, roc);
    var s1 := ClearTimer(s, roc);
    if IsImmediate(duration, maxWait) && s1.maxTimer.Some? {
      CancelLastKeeps(s1, roc);
    }
  }

  lemma TimerFiredKeepsValid(s: State, now: nat, roc: bool)
    requires Valid(s) && s.timer.Live? && s.timer.timer.due <= now
    ensures Valid(TimerFired(s, now, roc))
    ensures Settles(s.promises, TimerFired(s, now, roc).promises)
  {
    CancelLastKeeps(s.(timer := Spent), roc);
  }

  lemma MaxTimerFiredKeepsValid(s: State, now: nat, roc: bool)
    requires Valid(s) && s.maxTimer.Some? && s.maxTimer.value.due <= now
    ensures Valid(MaxTimerFired(s, now, roc))
    ensures Settles(s.promises, MaxTimerFired(s, now, roc).promises)
  {
    ClearTimerKeeps(s, roc);
  }

  /**
   * A call that is not sent straight through invokes nothing: it cancels the
   * pending call's promise (resolved with undefined, or rejected with
   * `rejectOnCancel`), returns a pending promise that `lastRejector` now
   * settles, and arms one regular timer `duration` from now for it.
   */
  lemma CallDefers(s: State, now: nat, duration: int, maxWait: Option<int>, roc: bool)
    requires Valid(s) && !IsImmediate(duration, maxWait)
    ensures var s' := Call(s, now, duration, maxWait, roc);
      && s'.invocations == s.invocations
      && |s'.promises| == |s.promises| + 1
      && s'.promises[|s.promises|] == Pending
      && s'.timer == Live(Timer(now + duration, |s.promises|))
      && s'.lastRejector == Some(|s.promises|)
      && (s.timer != NoHandle && s.lastRejector.Some? && s.promises[s.lastRejector.value].Pending? ==>
            s'.promises[s.lastRejector.value] == Cancelled(roc))
      && (s.maxTimer.None? && maxWait.Some? ==> s'.maxTimer == Some(Timer(now + maxWait.value, |s.promises|)))
      && (s.maxTimer.Some? ==> s'.maxTimer == s.maxTimer)
  {
  }

  /** `useDebounceFn(fn)` with its default delay and no `maxWait`: each call waits 200 ms. */
  lemma DefaultDelayDefers(s: State, now: nat, roc: bool)
    requires Valid(s)
    ensures var s' := Call(s, now, DefaultDelay, None, roc);
      s'.invocations == s.invocations && s'.timer == Live(Timer(now + 200, |s.promises|)) && s'.maxTimer == s.maxTimer
  {
    CallDefers(s, now, DefaultDelay, None, roc);
  }

  /**
   * A delay (or `maxWait`) of zero or less invokes the function at once and
   * returns a promise of its result; any max timer is cleared, and clearing
   * the regular timer first cancels the pending call's promise.
   */
  lemma CallImmediate(s: State, now: nat, duration: int, maxWait: Option<int>, roc: bool)
    requires Valid(s) && IsImmediate(duration, maxWait)
    ensures var s' := Call(s, now, duration, maxWait, roc);
      && s'.invocations == s.invocations + 1
      && s'.promises[|s.promises|] == Follows(s.invocations)
      && s'.maxTimer.None?
      && !s'.timer.Live?
      && (s.timer != NoHandle && s.lastRejector.Some? && s.promises[s.lastRejector.value].Pending? ==>
            s'.promises[s.lastRejector.value] == Cancelled(roc))
  {
  }

  /** When the regular timer fires, the function is invoked once and the owner's pending promise follows it. */
  lemma FireTimerInvokes(s: State, now: nat, roc: bool)
    requires Valid(s) && s.timer.Live? && s.timer.timer.due <= now
    requires s.maxTimer.None? && s.promises[s.timer.timer.owner].Pending?
    ensures var s' := TimerFired(s, now, roc);
      && s'.invocations == s.invocations + 1
      && s'.promises == s.promises[s.timer.timer.owner := Follows(s.invocations)]
      && s'.timer == Spent && s'.maxTimer.None?
  {
  }

  /** When the max-wait timer fires, the regular timer is cancelled, the max timer cleared and the function invoked once. */
  lemma FireMaxTimerInvokes(s: State, now: nat, roc: bool)
    requires Valid(s) && s.maxTimer.Some? && s.maxTimer.value.due <= now
    ensures var s' := MaxTimerFired(s, now, roc);
      && s'.invocations == s.invocations + 1
      && s'.timer == Spent && s'.maxTimer.None? && s'.lastRejector.None?
      && (s.lastRejector.Some? && s.promises[s.lastRejector.value].Pending? ==>
            s'.promises[s.lastRejector.value] == Cancelled(roc))
  {
  }

  // ---------------------------------------------------------------------
  // Bursts
  // ---------------------------------------------------------------------

  /** Calls at the given times, one after another, with fixed delay and `maxWait`. */
  function Burst(s: State, times: seq<nat>, duration: int, maxWait: Option<int>, roc: bool): State
  {
    if times == [] then s
    else Call(Burst(s, times[..|times| - 1], duration, maxWait, roc), times[|times| - 1], duration, maxWait, roc)
  }

  /**
   * A burst of calls invokes nothing: only the last call's promise is
   * pending, with one regular timer counting from the last call, every
   * earlier promise of the burst is cancelled, and the max-wait timer (if
   * any) counts from the first call.
   */
  lemma {:induction false} BurstCoalesces(s: State, times: seq<nat>, duration: int, maxWait: Option<int>, roc: bool)
    requires Valid(s) && s.maxTimer.None? && |times| > 0
    requires !IsImmediate(duration, maxWait)
    ensures var s' := Burst(s, times, duration, maxWait, roc);
      && Valid(s')
      && s'.invocations == s.invocations
      && |s'.promises| == |s.promises| + |times|
      && s'.timer == Live(Timer(times[|times| - 1] + duration, |s'.promises| - 1))
      && s'.lastRejector == Some(|s'.promises| - 1)
      && s'.promises[|s'.promises| - 1] == Pending
      && (forall i :: |s.promises| <= i < |s'.promises| - 1 ==> s'.promises[i] == Cancelled(roc))
      && s'.maxTimer == (if maxWait.None? then None else Some(Timer(times[0] + maxWait.value, |s.promises|)))
      && Settles(s.promises, s'.promises)
  {
    var prefix := times[..|times| - 1];
    var t := times[|times| - 1];
    if prefix == [] {
      CallDefers(s, t, duration, maxWait, roc);
      CallKeepsValid(s, t, duration, maxWait, roc);
    } else {
      BurstCoalesces(s, prefix, duration, maxWait, roc);
      var s1 := Burst(s, prefix, duration, maxWait, roc);
      assert prefix[0] == times[0];
      CallDefers(s1, t, duration, maxWait, roc);
      CallKeepsValid(s1, t, duration, maxWait, roc);
      SettlesTransitive(s.promises, s1.promises, Call(s1, t, duration, maxWait, roc).promises);
    }
  }

  /**
   * Without `maxWait`, a burst of calls followed by the timer firing invokes
   * the function exactly once; the last call's promise follows that
   * invocation and every other promise of the burst was cancelled.
   */
  lemma BurstInvokesOnce(s: State, times: seq<nat>, duration: int, now: nat, roc: bool)
    requires Valid(s) && s.maxTimer.None? && |times| > 0 && duration > 0
    requires times[|times| - 1] + duration <= now
    ensures var b := Burst(s, times, duration, None, roc);
      var s' := TimerFired(b, now, roc);
      && s'.invocations == s.invocations + 1
      && |s'.promises| == |s.promises| + |times|
      && s'.promises[|s'.promises| - 1] == Follows(s.invocations)
      && (forall i :: |s.promises| <= i < |s'.promises| - 1 ==> s'.promises[i] == Cancelled(roc))
      && Settles(s.promises, s'.promises)
  {
    BurstCoalesces(s, times, duration, None, roc);
  }

  /**
   * With `maxWait`, the invocation's result reaches no caller: when either
   * timer fires, `_clearTimeout` first settles the last call's promise
   * through `lastRejector`, so every promise of the burst ends up cancelled
   * although the function is invoked.
   */
  lemma MaxWaitResultReachesNoCaller(s: State, times: seq<nat>, duration: int, m: int, now: nat, roc: bool)
    requires Valid(s) && s.maxTimer.None? && |times| > 0 && duration > 0 && m > 0
    requires times[|times| - 1] + duration <= now && times[0] + m <= now
    ensures Burst(s, times, duration, Some(m), roc).maxTimer == Some(Timer(times[0] + m, |s.promises|))
    ensures Burst(s, times, duration, Some(m), roc).timer.Live?
    ensures Burst(s, times, duration, Some(m), roc).timer.timer.due <= now
    ensures var b := Burst(s, times, duration, Some(m), roc);
      && TimerFired(b, now, roc).invocations == s.invocations + 1
      && MaxTimerFired(b, now, roc).invocations == s.invocations + 1
      && (forall i :: |s.promises| <= i < |b.promises| ==>
            TimerFired(b, now, roc).promises[i] == Cancelled(roc)
            && MaxTimerFired(b, now, roc).promises[i] == Cancelled(roc))
  {
    BurstCoalesces(s, times, duration, Some(m), roc);
  }

  /**
   * The debounce test: `await execute()`, three calls in a row, 100 ms of
   * sleep, `await execute()` again, with a 50 ms delay, gives three
   * invocations; the three rapid calls produce one.
   */
  lemma DebounceTestScenario()
    ensures var s1 := Call(Initial, 1000, 50, None, false);
      var s2 := TimerFired(s1, 1050, false);
      var s3 := Burst(s2, [1050, 1050, 1050], 50, None, false);
      var s4 := TimerFired(s3, 1100, false);
      var s5 := Call(s4, 1150, 50, None, false);
      var s6 := TimerFired(s5, 1200, false);
      && s2.invocations == 1 && s3.invocations == 1 && s4.invocations == 2 && s6.invocations == 3
      && s6.promises == [Follows(0), ResolvedVoid, ResolvedVoid, Follows(1), Follows(2)]
  {
    var s1 := Call(Initial, 1000, 50, None, false);
    var s2 := TimerFired(s1, 1050, false);
    assert s2.promises == [Follows(0)] && s2.invocations == 1 && s2.maxTimer.None?;
    var s3 := Burst(s2, [1050, 1050, 1050], 50, None, false);
    BurstInvokesOnce(s2, [1050, 1050, 1050], 50, 1100, false);
    var s4 := TimerFired(s3, 1100, false);
    assert s4.promises[0] == Follows(0) && s4.promises[1] == ResolvedVoid && s4.promises[2] == ResolvedVoid;
    assert s4.promises == [Follows(0), ResolvedVoid, ResolvedVoid, Follows(1)];
    var s5 := Call(s4, 1150, 50, None, false);
    assert s5.promises == s4.promises + [Pending];
  }

  // ---------------------------------------------------------------------
  // The filter itself
  // ---------------------------------------------------------------------

  /** `debounceFilter(ms, options)`: its closure state, and the filter and timer callbacks. */
  class DebounceFilter {
    const rejectOnCancel: bool
    var timer: Handle
    var maxTimer: Option<Timer>
    var lastRejector: Option<nat>
    var promises: seq<Settlement>
    var invocations: nat

    function Current(): State
      reads this
    {
      State(timer, maxTimer, lastRejector, promises, invocations)
    }

    /** A filter with nothing scheduled; `useDebounceFn` passes an empty option bag, so `rejectOnCancel` is off. */
    constructor (rejectOnCancel: bool)
      ensures this.rejectOnCancel == rejectOnCancel
      ensures Current() == Initial
    {
      this.rejectOnCancel := rejectOnCancel;
      timer, maxTimer, lastRejector := NoHandle, None, None;
      promises, invocations := [], 0;
    }

    /** `lastRejector(); lastRejector = noop` */
    method RunLastRejector()
      modifies this
      ensures Current() == CancelLast(old(Current()), rejectOnCancel)
    {
      if lastRejector.Some? {
        promises := Settle(promises, lastRejector.value, Cancelled(rejectOnCancel));
      }
      lastRejector := None;
    }

    /** `filter(invoke)` at time `now`; `p` is the call's promise. */
    method Filter(now: nat, duration: int, maxWait: Option<int>) returns (p: nat)
      modifies this
      ensures p == |old(promises)| && p < |promises|
      ensures Current() == Call(old(Current()), now, duration, maxWait, rejectOnCancel)
    {
      if timer != NoHandle {
        timer := Spent;
        RunLastRejector();
      }
      p := |promises|;
      if duration <= 0 || (maxWait.Some? && maxWait.value <= 0) {
        if maxTimer.Some? {
          RunLastRejector();
          maxTimer := None;
        }
        promises := promises + [Follows(invocations)];
        invocations := invocations + 1;
        return;
      }
      promises := promises + [Pending];
      lastRejector := Some(p);
      if maxWait.Some? && maxTimer.None? {
        maxTimer := Some(Timer(now + maxWait.value, p));
      }
      timer := Live(Timer(now + duration, p));
    }

    /** The regular timer's callback, run at `now`. */
    method FireTimer(now: nat)
      requires timer.Live? && timer.timer.due <= now
      modifies this
      ensures Current() == TimerFired(old(Current()), now, rejectOnCancel)
    {
      var owner := timer.timer.owner;
      timer := Spent;
      if maxTimer.Some? {
        RunLastRejector();
      }
      maxTimer := None;
      var k := invocations;
      invocations := invocations + 1;
      promises := Settle(promises, owner, Follows(k));
    }

    /** The max-wait timer's callback, run at `now`. */
    method FireMaxTimer(now: nat)
      requires maxTimer.Some? && maxTimer.value.due <= now
      modifies this
      ensures Current() == MaxTimerFired(old(Current()), now, rejectOnCancel)
    {
      var owner := maxTimer.value.owner;
      if timer != NoHandle {
        timer := Spent;
        RunLastRejector();
      }
      maxTimer := None;
      var k := invocations;
      invocations := invocations + 1;
      promises := Settle(promises, owner, Follows(k));
    }
  }
}

=== FILE: fetch.dfy ===
/**
 * `useFetch` of src/core/useFetch.ts.  `execute` sets the refs, calls
 * `$fetch` with the transport options, the resolved reactive overrides and
 * two internal hooks, and the hooks and the settled fetch update the refs
 * in turn.  `FetchRefs` holds the refs and `hookCalls`, the user hooks
 * called so far; the functions on `Refs` are its specification.  The
 * pipeline, creation and watch wiring are pure.
 */
module Fetch {
  import opened Wrappers
  import opened JsValues
  import opened General
  import opened Ctx
  import opened Wiring
  import AsyncData

  // ---------------------------------------------------------------------
  // Wiring
  // ---------------------------------------------------------------------

  /** `$execute`: `useDebounceFn` when `debounceInterval` is defined, inside `useThrottleFn` when `throttleInterval` is. */
  function ExecutePipeline(c: Composable): (p: Pipeline)
    ensures Layers(p) == ExpectedLayers(c)
  {
    var inner := if c.debounceInterval != Undef then Debounced(Direct, c.debounceInterval) else Direct;
    assert Layers(inner) == if c.debounceInterval != Undef then [DebounceLayer(c.debounceInterval)] else [];
    if c.throttleInterval != Undef then Throttled(inner, c.throttleInterval) else inner
  }

  /** `useFetch` builds the same pipeline as `useAsyncData`'s `pipe` for the same options. */
  lemma SamePipelineAsAsyncData(c: Composable)
    ensures ExecutePipeline(c) == AsyncData.ExecutePipeline(c)
  {
    LayersDetermine(ExecutePipeline(c), AsyncData.ExecutePipeline(c));
  }

  /** With no options at all, creation makes exactly one request (`immediate` defaults to true, no polling). */
  lemma CreationRequests(options: Options)
    ensures var c := ResolveOptions(options).composable;
      CreationCalls(StartupPlan(c)) == (if Truthy(c.immediate) then 1 else 0)
    ensures "immediate" !in options ==> CreationCalls(StartupPlan(ResolveOptions(options).composable)) == 1
  {
    CreationCallsOnce(ResolveOptions(options).composable);
  }

  /** The computed request target and the `reactive()` overrides object, as watch sources named by identity. */
  const RequestSource: Value := Reactive("req")
  const OverridesSource: Value := Reactive("watchOptions")

  /**
   * The watch sources: none for `watch: false`; otherwise the request, the
   * reactive overrides, then the same user sources `useAsyncData` watches.
   */
  function WatchSources(c: Composable): (r: seq<Value>)
    ensures c.watch == Bool(false) ==> r == []
    ensures c.watch != Bool(false) ==> r == [RequestSource, OverridesSource] + AsyncData.WatchSources(c)
  {
    if c.watch == Bool(false) then []
    else [RequestSource, OverridesSource] + (if Truthy(c.watch) then ToArray(c.watch) else [])
  }

  // ---------------------------------------------------------------------
  // The options handed to `$fetch`
  // ---------------------------------------------------------------------

  /** The internal hooks `execute` installs. */
  const InternalOnResponse: Value := Func("execute.onResponse")
  const InternalOnRequestError: Value := Func("execute.onRequestError")

  /** `Object.fromEntries(Object.entries(watchOptions).map(([k, v]) => [k, toValue(v)]))` at call time. */
  function ResolvedOverrides(w: Options, env: map<string, Value>): (r: Options)
    ensures r.Keys == w.Keys
    ensures forall k :: k in w ==> r[k] == ToValue(w[k], env)
  {
    map k | k in w :: ToValue(w[k], env)
  }

  /** The second argument of `$fetch`: transport options, then overrides, then the internal hooks. */
  function Outgoing(r: Resolved, env: map<string, Value>): Options {
    (r.fetchOptions + ResolvedOverrides(r.watchOptions, env))
    + map["onResponse" := InternalOnResponse, "onRequestError" := InternalOnRequestError]
  }

  /** The internal hooks are transport keys, so they replace the user's hooks of the same name. */
  lemma InternalHooksAreTransportKeys()
    ensures "onResponse" in TransportKeys && "onRequestError" in TransportKeys
  {
    assert TransportKeyList[8] == "onRequestError" && TransportKeyList[9] == "onResponse";
  }

  /**
   * What `$fetch` receives for an option bag has every transport key and
   * every other key the user passed, but no orchestration key.
   */
  lemma OutgoingKeys(options: Options, env: map<string, Value>)
    ensures Outgoing(ResolveOptions(options), env).Keys == TransportKeys + (options.Keys - OrchestrationKeys - TransportKeys)
  {
    InternalHooksAreTransportKeys();
  }

  /** `$fetch` receives the internal `onResponse` and `onRequestError`, never the user's. */
  lemma OutgoingHooks(options: Options, env: map<string, Value>)
    ensures var o := Outgoing(ResolveOptions(options), env);
      && "onResponse" in o && o["onResponse"] == InternalOnResponse
      && "onRequestError" in o && o["onRequestError"] == InternalOnRequestError
  {
    assert |"onResponse"| != |"onRequestError"|;
  }

  /**
   * The other values `$fetch` receives: every other transport key as
   * passed (undefined when absent), and every other non-orchestration key
   * resolved to its current value.
   */
  lemma OutgoingValues(options: Options, env: map<string, Value>, k: string)
    requires k != "onResponse" && k != "onRequestError"
    ensures var o := Outgoing(ResolveOptions(options), env);
      && (k in TransportKeys ==> k in o && o[k] == Prop(options, k))
      && (k in options && k !in OrchestrationKeys && k !in TransportKeys ==> k in o && o[k] == ToValue(options[k], env))
  {
    var r := ResolveOptions(options);
    var w := ResolvedOverrides(r.watchOptions, env);
    var o := Outgoing(r, env);
    if k in TransportKeys {
      assert k !in w;
      assert o[k] == r.fetchOptions[k];
    } else if k in options && k !in OrchestrationKeys {
      assert k in r.watchOptions;
      assert o[k] == w[k];
    }
  }

  // ---------------------------------------------------------------------
  // The request state
  // ---------------------------------------------------------------------

  datatype Refs = Refs(
    status: Status,
    pending: bool,
    data: Value,
    error: Option<Value>,
    hookCalls: seq<Value>)   // the user's hooks called so far, in order

  const Initial: Refs := Refs(Idle, false, Null, None, [])

  /** `execute()` up to `await $fetch(...)` */
  function Started(s: Refs): Refs {
    s.(status := Pending, pending := true)
  }

  /** `ctx.options$fetch?.hook?.(ctx)`: the user's hook is called when there is one. */
  function CalledUser(s: Refs, hook: Value): Refs {
    if Nullish(hook) then s else s.(hookCalls := s.hookCalls + [hook])
  }

  /** The internal `onResponse`: success, then the user's `onResponse`. */
  function ResponseHooked(s: Refs, fetchOptions: Options): Refs {
    CalledUser(s.(status := Success), Prop(fetchOptions, "onResponse"))
  }

  /** The internal `onRequestError` as written: error state, then the user's `onResponseError`. */
  function RequestErrorHookedAsWritten(s: Refs, err: Value, fetchOptions: Options): Refs {
    CalledUser(s.(status := Error, error := Some(err)), Prop(fetchOptions, "onResponseError"))
  }

  /** The internal `onRequestError` as intended: error state, then the user's own `onRequestError`. */
  function RequestErrorHooked(s: Refs, err: Value, fetchOptions: Options): Refs {
    CalledUser(s.(status := Error, error := Some(err)), Prop(fetchOptions, "onRequestError"))
  }

  /**
   * A user's `onRequestError` is never called: the internal hook replaces
   * it in the outgoing options and calls `onResponseError` instead.
   */
  lemma RequestErrorHookFinding(s: Refs, err: Value, h: Value)
    requires h.Func?
    ensures var fetchOptions := ResolveOptions(map["onRequestError" := h]).fetchOptions;
      && RequestErrorHookedAsWritten(s, err, fetchOptions).hookCalls == s.hookCalls
      && RequestErrorHooked(s, err, fetchOptions).hookCalls == s.hookCalls + [h]
  {
    var options := map["onRequestError" := h];
    assert "onRequestError" in TransportKeyList && "onResponseError" in TransportKeyList;
    assert Prop(ResolveOptions(options).fetchOptions, "onResponseError") == Undef;
    assert Prop(ResolveOptions(options).fetchOptions, "onRequestError") == h;
  }

  /** `data.value = await $fetch(...)` and the line after it. */
  function FetchResolved(s: Refs, v: Value): Refs {
    s.(data := v, pending := false)
  }

  /** A rejected `$fetch` as written: the rest of `execute` is skipped, nothing changes. */
  function FetchRejectedAsWritten(s: Refs): Refs {
    s
  }

  /** A rejected `$fetch` as intended: `pending` is reset as after a success. */
  function FetchRejected(s: Refs): Refs {
    s.(pending := false)
  }

  /**
   * How `$fetch` ends: with a response, or a failed request.  `ok` says
   * whether `$fetch` resolves with the response; ofetch rejects a response
   * with a 400-599 status unless `ignoreResponseError` is set.
   */
  datatype Response = Responded(value: Value, ok: bool) | RequestFailed(err: Value)

  /**
   * A whole execution against `$fetch`, which calls the user's `onRequest`,
   * then `onResponse` and, for a response it rejects, the user's
   * `onResponseError` before rejecting; or, when the request fails,
   * `onRequestError` before rejecting.
   */
  function ExecutedAsWritten(s: Refs, fetchOptions: Options, resp: Response): Refs {
    var s1 := CalledUser(Started(s), Prop(fetchOptions, "onRequest"));
    match resp
    case Responded(v, ok) =>
      var s2 := ResponseHooked(s1, fetchOptions);
      if ok then FetchResolved(s2, v)
      else FetchRejectedAsWritten(CalledUser(s2, Prop(fetchOptions, "onResponseError")))
    case RequestFailed(err) =>
      FetchRejectedAsWritten(RequestErrorHookedAsWritten(s1, err, fetchOptions))
  }

  function Executed(s: Refs, fetchOptions: Options, resp: Response): Refs {
    var s1 := CalledUser(Started(s), Prop(fetchOptions, "onRequest"));
    match resp
    case Responded(v, ok) =>
      var s2 := ResponseHooked(s1, fetchOptions);
      if ok then FetchResolved(s2, v)
      else FetchRejected(CalledUser(s2, Prop(fetchOptions, "onResponseError")))
    case RequestFailed(err) =>
      FetchRejected(RequestErrorHooked(s1, err, fetchOptions))
  }

  /** As written, every failed execution leaves `pending` on for good; as intended it never does. */
  lemma PendingAfterRejectionFinding(s: Refs, fetchOptions: Options, resp: Response)
    ensures !(resp.Responded? && resp.ok) ==> ExecutedAsWritten(s, fetchOptions, resp).pending
    ensures !Executed(s, fetchOptions, resp).pending
  {
  }

  /**
   * What an execution of the source leaves: `pending` still on after any
   * failure; `success` for every response, even one `$fetch` rejects, and
   * `error` for a failed request only; `data` replaced only by a response
   * `$fetch` resolves with; `error` set only by a failed request.
   */
  lemma ExecutionOutcomeAsWritten(s: Refs, fetchOptions: Options, resp: Response)
    ensures var t := ExecutedAsWritten(s, fetchOptions, resp);
      && (t.pending <==> !(resp.Responded? && resp.ok))
      && (t.status == Success <==> resp.Responded?)
      && (t.status == Error <==> resp.RequestFailed?)
      && (resp.Responded? && resp.ok ==> t.data == resp.value && t.error == s.error)
      && (resp.Responded? && !resp.ok ==> t.data == s.data && t.error == s.error)
      && (resp.RequestFailed? ==> t.data == s.data && t.error == Some(resp.err))
  {
  }

  /**
   * What an execution leaves once corrected: `pending` off; `success` for every response,
   * even one `$fetch` rejects, and `error` for a failed request only; `data`
   * replaced only by a response `$fetch` resolves with; `error` set only by a failed request.
   */
  lemma ExecutionOutcome(s: Refs, fetchOptions: Options, resp: Response)
    ensures var t := Executed(s, fetchOptions, resp);
      && !t.pending
      && (t.status == Success <==> resp.Responded?)
      && (t.status == Error <==> resp.RequestFailed?)
      && (resp.Responded? && resp.ok ==> t.data == resp.value && t.error == s.error)
      && (resp.Responded? && !resp.ok ==> t.data == s.data && t.error == s.error)
      && (resp.RequestFailed? ==> t.data == s.data && t.error == Some(resp.err))
  {
  }

  /** The execution with the intended fixes agrees with the source on every successful response. */
  lemma FixesOnlyTouchFailures(s: Refs, fetchOptions: Options, v: Value)
    ensures Executed(s, fetchOptions, Responded(v, true)) == ExecutedAsWritten(s, fetchOptions, Responded(v, true))
  {
  }

  /** The refs of one call site, with the user hooks called so far. */
  class FetchRefs {
    var status: Status
    var pending: bool
    var data: Value
    var error: Option<Value>
    var hookCalls: seq<Value>

    function Current(): Refs
      reads this
    {
      Refs(status, pending, data, error, hookCalls)
    }

    constructor ()
      ensures Current() == Initial
    {
      status, pending, data, error, hookCalls := Idle, false, Null, None, [];
    }

    method Start()
      modifies this
      ensures Current() == Started(old(Current()))
    {
      status := Pending;
      pending := true;
    }

    /** `$fetch` calls a hook the user passed through the transport options. */
    method CallUserHook(hook: Value)
      modifies this
      ensures Current() == CalledUser(old(Current()), hook)
    {
      if !Nullish(hook) {
        hookCalls := hookCalls + [hook];
      }
    }

    /** `$fetch` calls the internal `onResponse`. */
    method OnResponse(fetchOptions: Options)
      modifies this
      ensures Current() == ResponseHooked(old(Current()), fetchOptions)
    {
      status := Success;
      CallUserHook(Prop(fetchOptions, "onResponse"));
    }

    /** `$fetch` calls the internal `onRequestError`, which passes the context on to the user's `onRequestError`. */
    method OnRequestError(err: Value, fetchOptions: Options)
      modifies this
      ensures Current() == RequestErrorHooked(old(Current()), err, fetchOptions)
    {
      status := Error;
      error := Some(err);
      CallUserHook(Prop(fetchOptions, "onRequestError"));
    }

    method Resolve(v: Value)
      modifies this
      ensures Current() == FetchResolved(old(Current()), v)
    {
      data := v;
      pending := false;
    }

    method Reject()
      modifies this
      ensures Current() == FetchRejected(old(Current()))
    {
      pending := false;
    }

    /** One execution, hook by hook, against the response `$fetch` ends with. */
    method Execute(fetchOptions: Options, resp: Response)
      modifies this
      ensures Current() == Executed(old(Current()), fetchOptions, resp)
    {
      Start();
      CallUserHook(Prop(fetchOptions, "onRequest"));
      match resp {
        case Responded(v, ok) =>
          OnResponse(fetchOptions);
          if ok {
            Resolve(v);
          } else {
            CallUserHook(Prop(fetchOptions, "onResponseError"));
            Reject();
          }
        case RequestFailed(err) =>
          OnRequestError(err, fetchOptions);
          Reject();
      }
    }
  }
}

=== FILE: general.dfy ===
/**
 * Key-path and array helpers of src/core/utils/general.ts: `toArray`, `get`
 * and `clearUndefined`.
 */
module General {
  import opened Wrappers
  import opened JsValues

  // ---------------------------------------------------------------------
  // toArray
  // ---------------------------------------------------------------------

  /** `toArray`: nothing for null/undefined, an array as it is, anything else as a singleton. */
  function ToArray(v: Value): (r: seq<Value>)
    ensures Nullish(v) ==> r == []
    ensures v.Arr? ==> r == v.items
    ensures !Nullish(v) && !v.Arr? ==> r == [v]
  {
    if Nullish(v) then [] else if v.Arr? then v.items else [v]
  }

  /** Normalising an already normalised array gives it back unchanged. */
  lemma ToArrayIdempotent(v: Value)
    ensures ToArray(Arr(ToArray(v))) == ToArray(v)
    ensures forall x :: x in ToArray(v) ==> x == v || (v.Arr? && x in v.items)
  {
  }

  // ---------------------------------------------------------------------
  // Splitting a key path on `.`, `[` and `]`
  // ---------------------------------------------------------------------

  predicate IsDelimiter(c: char) {
    c == '.' || c == '[' || c == ']'
  }

  predicate NoDelimiter(s: string) {
    forall i :: 0 <= i < |s| ==> !IsDelimiter(s[i])
  }

  predicate AllDelimiters(ds: string) {
    forall i :: 0 <= i < |ds| ==> IsDelimiter(ds[i])
  }

  /** The delimiters of `path`, in order. */
  function Delimiters(path: string): (ds: string)
    ensures AllDelimiters(ds)
  {
    if path == [] then []
    else if IsDelimiter(path[0]) then [path[0]] + Delimiters(path[1..])
    else Delimiters(path[1..])
  }

  /**
   * `path.split(/[.[\]]/g)`: the pieces between delimiters, empty ones
   * included, so there is always one more segment than delimiters.
   */
  function Split(path: string): (segs: seq<string>)
    ensures |segs| == |Delimiters(path)| + 1
    ensures forall i :: 0 <= i < |segs| ==> NoDelimiter(segs[i])
  {
    if path == [] then [""]
    else
      var rest := Split(path[1..]);
      if IsDelimiter(path[0]) then [""] + rest
      else [[path[0]] + rest[0]] + rest[1..]
  }

  /** Puts segments and delimiters back together: `segs[0] ds[0] segs[1] ds[1] ...`. */
  function Rebuild(segs: seq<string>, ds: string): string
    requires |segs| == |ds| + 1
  {
    if ds == [] then segs[0] else segs[0] + [ds[0]] + Rebuild(segs[1..], ds[1..])
  }

  lemma RebuildPrepend(x: string, segs: seq<string>, ds: string)
    requires |segs| == |ds| + 1
    ensures Rebuild([x + segs[0]] + segs[1..], ds) == x + Rebuild(segs, ds)
  {
    var segs' := [x + segs[0]] + segs[1..];
    assert segs'[1..] == segs[1..];
  }

  /** Splitting loses nothing: the segments and the delimiters rebuild the path. */
  lemma {:induction false} SplitRebuild(path: string)
    ensures Rebuild(Split(path), Delimiters(path)) == path
  {
    if path != [] {
      var rest := Split(path[1..]);
      SplitRebuild(path[1..]);
      if IsDelimiter(path[0]) {
        var segs := [""] + rest;
        assert segs[1..] == rest;
        assert path == [path[0]] + path[1..];
      } else {
        RebuildPrepend([path[0]], rest, Delimiters(path[1..]));
        assert path == [path[0]] + path[1..];
      }
    }
  }

  lemma {:induction false} SplitPrefix(a: string, t: string)
    requires NoDelimiter(a)
    ensures Split(a + t) == [a + Split(t)[0]] + Split(t)[1..]
    ensures Delimiters(a + t) == Delimiters(t)
  {
    var st := Split(t);
    if a == [] {
      assert a + t == t;
      assert a + st[0] == st[0];
      assert [st[0]] + st[1..] == st;
    } else {
      assert (a + t)[1..] == a[1..] + t;
      assert (a + t)[0] == a[0];
      SplitPrefix(a[1..], t);
      var rest := Split(a[1..] + t);
      assert rest == [a[1..] + st[0]] + st[1..];
      assert rest[0] == a[1..] + st[0];
      assert rest[1..] == st[1..];
      assert [a[0]] + (a[1..] + st[0]) == a + st[0];
    }
  }

  /** Splitting a rebuilt path gives back the delimiter-free segments it was built from. */
  lemma {:induction false} RebuildSplit(segs: seq<string>, ds: string)
    requires |segs| == |ds| + 1
    requires forall i :: 0 <= i < |segs| ==> NoDelimiter(segs[i])
    requires AllDelimiters(ds)
    ensures Split(Rebuild(segs, ds)) == segs
    ensures Delimiters(Rebuild(segs, ds)) == ds
  {
    if ds == [] {
      SplitPrefix(segs[0], "");
      assert segs[0] + "" == segs[0];
      assert segs == [segs[0]];
    } else {
      var tail := Rebuild(segs[1..], ds[1..]);
      RebuildSplit(segs[1..], ds[1..]);
      var dt := [ds[0]] + tail;
      assert dt[1..] == tail;
      assert Split(dt) == [""] + Split(tail);
      assert Delimiters(dt) == [ds[0]] + Delimiters(tail);
      assert segs[0] + [ds[0]] + tail == segs[0] + dt;
      SplitPrefix(segs[0], dt);
      assert segs[0] + "" == segs[0];
      assert segs == [segs[0]] + segs[1..];
    }
  }

  // ---------------------------------------------------------------------
  // Segment clean-up: quotes and blank segments
  // ---------------------------------------------------------------------

  predicate IsQuote(c: char) {
    c == '\'' || c == '"'
  }

  /** `key.replace(/['"]/g, '')`. */
  function Dequote(s: string): (r: string)
    ensures forall i :: 0 <= i < |r| ==> !IsQuote(r[i])
    ensures |r| <= |s|
  {
    if s == [] then []
    else if IsQuote(s[0]) then Dequote(s[1..])
    else [s[0]] + Dequote(s[1..])
  }

  /** Removing quotes twice is removing them once, and a quote-free key is left alone. */
  lemma {:induction false} DequoteIdempotent(s: string)
    ensures Dequote(Dequote(s)) == Dequote(s)
    ensures (forall i :: 0 <= i < |s| ==> !IsQuote(s[i])) ==> Dequote(s) == s
  {
    if s != [] {
      DequoteIdempotent(s[1..]);
      if !IsQuote(s[0]) {
        var r := [s[0]] + Dequote(s[1..]);
        assert r[0] == s[0] && r[1..] == Dequote(s[1..]);
      }
      if forall i :: 0 <= i < |s| ==> !IsQuote(s[i]) {
        assert forall i :: 0 <= i < |s[1..]| ==> !IsQuote(s[1..][i]) by {
          forall i | 0 <= i < |s[1..]| ensures !IsQuote(s[1..][i]) {
            assert s[1..][i] == s[i + 1];
          }
        }
        assert s == [s[0]] + s[1..];
      }
    }
  }

  /** The characters `String.prototype.trim` removes (white space and line terminators). */
  predicate IsJsSpace(c: char) {
    c == ' ' || c == '\t' || c == '\n' || c == '\r' || c == '\U{000B}' || c == '\U{000C}'
    || c == '\U{00A0}' || c == '\U{1680}' || ('\U{2000}' <= c <= '\U{200A}')
    || c == '\U{2028}' || c == '\U{2029}' || c == '\U{202F}' || c == '\U{205F}'
    || c == '\U{3000}' || c == '\U{FEFF}'
  }

  /** `s.trim() === ''`. */
  predicate IsBlank(s: string) {
    forall i :: 0 <= i < |s| ==> IsJsSpace(s[i])
  }

  // ---------------------------------------------------------------------
  // Property lookup
  // ---------------------------------------------------------------------

  predicate IsDigit(c: char) {
    '0' <= c <= '9'
  }

  function DigitValue(c: char): nat
    requires IsDigit(c)
  {
    (c as int) - ('0' as int)
  }

  function DigitChar(d: nat): (c: char)
    requires d < 10
    ensures IsDigit(c) && DigitValue(c) == d
  {
    ('0' as int + d) as char
  }

  predicate AllDigits(s: string) {
    forall i :: 0 <= i < |s| ==> IsDigit(s[i])
  }

  /** The number a string of decimal digits denotes. */
  function DecimalValue(s: string): nat
    requires AllDigits(s)
  {
    if s == [] then 0 else DecimalValue(s[..|s| - 1]) * 10 + DigitValue(s[|s| - 1])
  }

  /** A key that names an array element: decimal digits without a leading zero. */
  predicate IsCanonicalIndex(key: string) {
    |key| > 0 && AllDigits(key) && (key[0] == '0' ==> |key| == 1)
  }

  /** The array index a property key names, if it names one. */
  function ParseIndex(key: string): (r: Option<nat>)
    ensures r.Some? <==> IsCanonicalIndex(key)
  {
    if IsCanonicalIndex(key) then Some(DecimalValue(key)) else None
  }

  /** The decimal spelling of a natural number (`String(n)`). */
  function ShowNat(n: nat): (s: string)
    ensures |s| > 0 && AllDigits(s)
    ensures s[0] == '0' ==> n == 0 && |s| == 1
  {
    if n < 10 then [DigitChar(n)] else ShowNat(n / 10) + [DigitChar(n % 10)]
  }

  /** Every array index is found again under its decimal key (`arr[String(i)] === arr[i]`). */
  lemma {:induction false} ParseShowNat(n: nat)
    ensures ParseIndex(ShowNat(n)) == Some(n)
  {
    var s := ShowNat(n);
    if n >= 10 {
      var p := ShowNat(n / 10);
      ParseShowNat(n / 10);
      assert s == p + [DigitChar(n % 10)];
      assert s[..|s| - 1] == p;
      assert s[0] == p[0];
      assert DecimalValue(s) == DecimalValue(p) * 10 + n % 10;
    } else {
      assert s[..|s| - 1] == [];
      assert DecimalValue(s) == n;
    }
  }

  /**
   * `current[key]` for the values `get` walks through: an own field of an
   * object, an element of an array, and undefined for everything else.
   */
  function Lookup(current: Value, key: string): (r: Value)
    ensures current.Obj? && key in current.fields ==> r == current.fields[key]
    ensures current.Arr? && ParseIndex(key).Some? && ParseIndex(key).value < |current.items| ==>
              r == current.items[ParseIndex(key).value]
    ensures !current.Obj? && !current.Arr? ==> r == Undef
  {
    match current
    case Obj(_, fields) => if key in fields then fields[key] else Undef
    case Arr(items) =>
      var i := ParseIndex(key);
      if i.Some? && i.value < |items| then items[i.value] else Undef
    case _ => Undef
  }

  // ---------------------------------------------------------------------
  // get
  // ---------------------------------------------------------------------

  /**
   * What the loop of `get` computes from `current` over the remaining
   * segments: the default as soon as a segment is reached with a null or
   * undefined `current`, blank segments skipped, and at the end the default
   * for undefined.
   */
  function Walk(current: Value, segs: seq<string>, default: Value): Value
    decreases segs
  {
    if segs == [] then (if current.Undef? then default else current)
    else if Nullish(current) then default
    else
      var key := Dequote(segs[0]);
      if IsBlank(key) then Walk(current, segs[1..], default)
      else Walk(Lookup(current, key), segs[1..], default)
  }

  /**
   * An independent reading of the walk: descend through the segments, with
   * `None` when a null or undefined value is met before a segment.
   */
  function Descend(current: Value, segs: seq<string>): Option<Value>
    decreases segs
  {
    if segs == [] then Some(current)
    else if Nullish(current) then None
    else
      var key := Dequote(segs[0]);
      Descend(if IsBlank(key) then current else Lookup(current, key), segs[1..])
  }

  /** The walk is the descent with the default put in for a failure or a final undefined. */
  lemma {:induction false} WalkIsDescent(current: Value, segs: seq<string>, default: Value)
    ensures Walk(current, segs, default) ==
              match Descend(current, segs)
              case None => default
              case Some(v) => if v.Undef? then default else v
    decreases segs
  {
    if segs != [] && !Nullish(current) {
      var key := Dequote(segs[0]);
      WalkIsDescent(if IsBlank(key) then current else Lookup(current, key), segs[1..], default);
    }
  }

  /** Descending through `a + b` is descending through `a`, then through `b`. */
  lemma {:induction false} DescendAppend(current: Value, a: seq<string>, b: seq<string>)
    ensures Descend(current, a + b) ==
              match Descend(current, a)
              case None => None
              case Some(v) => Descend(v, b)
    decreases a
  {
    if a == [] {
      assert a + b == b;
    } else if !Nullish(current) {
      var key := Dequote(a[0]);
      assert (a + b)[0] == a[0] && (a + b)[1..] == a[1..] + b;
      DescendAppend(if IsBlank(key) then current else Lookup(current, key), a[1..], b);
    }
  }

  /**
   * `get(value, path, defaultValue)`: split the path, then walk the value
   * segment by segment.
   */
  method Get(value: Value, path: string, default: Value) returns (r: Value)
    ensures r == Walk(value, Split(path), default)
  {
    var segments := Split(path);
    var current := value;
    var i := 0;
    while i < |segments|
      invariant 0 <= i <= |segments|
      invariant Walk(current, segments[i..], default) == Walk(value, segments, default)
    {
      if current.Null? {
        return default;
      }
      if current.Undef? {
        return default;
      }
      var deQuoted := Dequote(segments[i]);
      assert segments[i..][1..] == segments[i + 1..];
      if IsBlank(deQuoted) {
        i := i + 1;
        continue;
      }
      current := Lookup(current, deQuoted);
      i := i + 1;
    }
    if current.Undef? {
      return default;
    }
    return current;
  }

  /** `get` as a value, for use in specifications. */
  function GetValue(value: Value, path: string, default: Value): Value {
    Walk(value, Split(path), default)
  }

  /**
   * A path made only of delimiters, quotes and white space selects the value
   * itself; a null or undefined value gives the default (the null check runs
   * before the first, even empty, segment).
   */
  lemma {:induction false} GetBlankPath(value: Value, segs: seq<string>, default: Value)
    requires |segs| > 0
    requires forall i :: 0 <= i < |segs| ==> IsBlank(Dequote(segs[i]))
    ensures Walk(value, segs, default) == if Nullish(value) then default else value
    decreases segs
  {
    if !Nullish(value) && |segs| > 1 {
      GetBlankPath(value, segs[1..], default);
    }
  }

  /**
   * Once the walk reaches null or undefined with a segment left, the result
   * is the default, whatever the remaining segments are.
   */
  lemma GetNullishMidway(value: Value, a: seq<string>, b: seq<string>, default: Value)
    requires |b| > 0
    requires Descend(value, a).Some? && Nullish(Descend(value, a).value)
    ensures Walk(value, a + b, default) == default
  {
    DescendAppend(value, a, b);
    WalkIsDescent(value, a + b, default);
  }

  /** A final undefined gives the default, but a final null is returned as null. */
  lemma GetFinalValue(value: Value, segs: seq<string>, default: Value)
    requires Descend(value, segs).Some?
    ensures Descend(value, segs).value.Undef? ==> Walk(value, segs, default) == default
    ensures Descend(value, segs).value.Null? ==> Walk(value, segs, default) == Null
  {
    WalkIsDescent(value, segs, default);
  }

  /** Following plain keys one after another, with every intermediate value present. */
  function Nested(value: Value, keys: seq<string>): Option<Value>
    decreases keys
  {
    if keys == [] then Some(value)
    else if Nullish(value) then None
    else Nested(Lookup(value, keys[0]), keys[1..])
  }

  predicate PlainKey(k: string) {
    NoDelimiter(k) && !IsBlank(k) && forall i :: 0 <= i < |k| ==> !IsQuote(k[i])
  }

  /**
   * For a path written as plain keys separated by delimiters (`a.b`,
   * `friends[0` ... ), `get` returns the nested value when it exists and is
   * not undefined, and the default otherwise.
   */
  lemma {:induction false} GetNested(value: Value, keys: seq<string>, ds: string, default: Value)
    requires |keys| == |ds| + 1
    requires forall i :: 0 <= i < |keys| ==> PlainKey(keys[i])
    requires AllDelimiters(ds)
    ensures GetValue(value, Rebuild(keys, ds), default) ==
              match Nested(value, keys)
              case None => default
              case Some(v) => if v.Undef? then default else v
  {
    RebuildSplit(keys, ds);
    NestedWalk(value, keys, default);
  }

  lemma {:induction false} NestedWalk(value: Value, keys: seq<string>, default: Value)
    requires forall i :: 0 <= i < |keys| ==> PlainKey(keys[i])
    ensures Walk(value, keys, default) ==
              match Nested(value, keys)
              case None => default
              case Some(v) => if v.Undef? then default else v
    decreases keys
  {
    if keys != [] && !Nullish(value) {
      DequoteIdempotent(keys[0]);
      NestedWalk(Lookup(value, keys[0]), keys[1..], default);
    }
  }

  lemma FriendsPathSegments()
    ensures Split("friends[0].name") == ["friends", "0", "", "name"]
  {
    var keys := ["friends", "0", "", "name"];
    assert NoDelimiter("friends") && NoDelimiter("0") && NoDelimiter("") && NoDelimiter("name");
    assert Rebuild(keys[3..], "") == "name";
    assert Rebuild(keys[2..], ".") == ".name";
    assert Rebuild(keys[1..], "].") == "0].name";
    assert Rebuild(keys, "[].") == "friends[0].name";
    RebuildSplit(keys, "[].");
  }

  /** The documented example: `get(person, 'friends[0].name')`. */
  lemma GetFriendsExample(name: Value, default: Value)
    requires !name.Undef?
    ensures GetValue(PlainObject(map["friends" := Arr([PlainObject(map["name" := name])])]),
                     "friends[0].name", default) == name
  {
    var friend := PlainObject(map["name" := name]);
    var friends := Arr([friend]);
    var person := PlainObject(map["friends" := friends]);
    FriendsKeysClean();
    assert Walk(friend, ["name"], default) == name by {
      assert Lookup(friend, "name") == name;
      WalkStep(friend, "name", [], default);
    }
    assert Walk(friend, ["", "name"], default) == name by {
      WalkStep(friend, "", ["name"], default);
    }
    assert Walk(friends, ["0", "", "name"], default) == name by {
      assert Lookup(friends, "0") == friend;
      WalkStep(friends, "0", ["", "name"], default);
    }
    assert Walk(person, ["friends", "0", "", "name"], default) == name by {
      assert Lookup(person, "friends") == friends;
      WalkStep(person, "friends", ["0", "", "name"], default);
    }
    FriendsPathSegments();
  }

  lemma WalkStep(current: Value, key: string, rest: seq<string>, default: Value)
    requires !Nullish(current)
    ensures Walk(current, [key] + rest, default) ==
              if IsBlank(Dequote(key)) then Walk(current, rest, default)
              else Walk(Lookup(current, Dequote(key)), rest, default)
  {
    assert ([key] + rest)[1..] == rest;
  }

  lemma FriendsKeysClean()
    ensures Dequote("friends") == "friends" && !IsBlank("friends")
    ensures Dequote("0") == "0" && !IsBlank("0") && ParseIndex("0") == Some(0)
    ensures Dequote("name") == "name" && !IsBlank("name")
    ensures IsBlank(Dequote(""))
  {
    PlainWord("friends");
    PlainWord("0");
    PlainWord("name");
    ParseShowNat(0);
    assert ShowNat(0) == "0";
  }

  /** A key of lower-case letters and digits needs no clean-up. */
  lemma PlainWord(s: string)
    requires |s| > 0 && forall i :: 0 <= i < |s| ==> 'a' <= s[i] <= 'z' || '0' <= s[i] <= '9'
    ensures Dequote(s) == s && !IsBlank(s)
  {
    DequoteIdempotent(s);
    assert !IsJsSpace(s[0]);
  }

  // ---------------------------------------------------------------------
  // clearUndefined
  // ---------------------------------------------------------------------

  /** The properties of `m` whose value is not undefined. */
  function WithoutUndefined(m: map<string, Value>): map<string, Value> {
    map k | k in m && !m[k].Undef? :: m[k]
  }

  /** Exactly the undefined-valued keys go; every other entry stays, and a second pass changes nothing. */
  lemma WithoutUndefinedSpec(m: map<string, Value>)
    ensures forall k :: k in WithoutUndefined(m) <==> k in m && !m[k].Undef?
    ensures forall k :: k in WithoutUndefined(m) ==> WithoutUndefined(m)[k] == m[k]
    ensures WithoutUndefined(WithoutUndefined(m)) == WithoutUndefined(m)
  {
  }

  /** A JavaScript object whose properties are changed in place. */
  class JsObject {
    var props: map<string, Value>

    constructor (props: map<string, Value>)
      ensures this.props == props
    {
      this.props := props;
    }

    /** `clearUndefined(obj)`: deletes the undefined-valued keys and returns the same object. */
    method ClearUndefined() returns (same: JsObject)
      modifies this
      ensures same == this
      ensures props == WithoutUndefined(old(props))
    {
      var keys := props.Keys;
      while keys != {}
        invariant keys <= old(props).Keys
        invariant props == map k | k in old(props) && (k in keys || !old(props)[k].Undef?) :: old(props)[k]
        decreases keys
      {
        var key :| key in keys;
        if props[key].Undef? {
          props := props - {key};
        }
        keys := keys - {key};
      }
      return this;
    }
  }
}

=== FILE: pagination.dfy ===
/**
 * `usePagination` of src/core/usePagination.ts: the option defaults, the
 * options it hands to `useFetch` (with a page-injecting `onRequest` hook and
 * the page refs added to the watch sources), the `total`/`pageTotal`
 * derivation, and `create`.  The page refs and the request context the
 * hook rewrites are objects (`Paginator`, `RequestContext`); the rest is
 * pure.
 */
module Pagination {
  import opened Wrappers
  import opened JsValues
  import opened General
  import opened Ctx
  import Fetch

  // ---------------------------------------------------------------------
  // Options
  // ---------------------------------------------------------------------

  /** The options `usePagination` consumes itself. */
  const PaginationKeys: set<string> :=
    {"pageCurrentKey", "pageSizeKey", "defaultPageSize", "totalKey", "pageTotalKey"}

  datatype Settings = Settings(
    pageCurrentKey: string,
    pageSizeKey: string,
    defaultPageSize: Value,
    totalKey: string,
    pageTotalKey: string)

  const DefaultSettings: Settings := Settings("current", "pageSize", Num(10.0), "total", "totalPage")

  /** `{ ...defaultOptions, ...options }`: the call site wins. */
  function Merged(defaults: Options, options: Options): Options {
    Spread(defaults, options)
  }

  /** The key options are strings or left out, as their type says. */
  predicate KeysWellTyped(merged: Options) {
    && (Prop(merged, "pageCurrentKey").Undef? || Prop(merged, "pageCurrentKey").Str?)
    && (Prop(merged, "pageSizeKey").Undef? || Prop(merged, "pageSizeKey").Str?)
    && (Prop(merged, "totalKey").Undef? || Prop(merged, "totalKey").Str?)
    && (Prop(merged, "pageTotalKey").Undef? || Prop(merged, "pageTotalKey").Str?)
  }

  /** A destructured key option with its default. */
  function KeyOption(v: Value, default: string): string
    requires v.Undef? || v.Str?
  {
    if v.Undef? then default else v.s
  }

  /** The destructuring of the merged options, with its defaults. */
  function SettingsOf(merged: Options): Settings
    requires KeysWellTyped(merged)
  {
    Settings(
      KeyOption(Prop(merged, "pageCurrentKey"), DefaultSettings.pageCurrentKey),
      KeyOption(Prop(merged, "pageSizeKey"), DefaultSettings.pageSizeKey),
      Defaulted(Prop(merged, "defaultPageSize"), DefaultSettings.defaultPageSize),
      KeyOption(Prop(merged, "totalKey"), DefaultSettings.totalKey),
      KeyOption(Prop(merged, "pageTotalKey"), DefaultSettings.pageTotalKey))
  }

  /** `...useFetchOptions`: everything but the pagination options. */
  function Rest(merged: Options): (r: Options)
    ensures r.Keys == merged.Keys - PaginationKeys
    ensures forall k :: k in r ==> r[k] == merged[k]
  {
    map k | k in merged && k !in PaginationKeys :: merged[k]
  }

  /**
   * Where `pageCurrentKey` comes from: the call site when it gives a
   * string, the preset when the call site leaves the key out, and the
   * built-in `'current'` when the call site passes it as undefined, even
   * over a preset value.  Likewise for `defaultPageSize`.
   */
  lemma SettingsPrecedence(defaults: Options, options: Options)
    requires KeysWellTyped(Merged(defaults, options))
    ensures var st := SettingsOf(Merged(defaults, options));
      && (Prop(options, "pageCurrentKey").Str? ==> st.pageCurrentKey == options["pageCurrentKey"].s)
      && ("pageCurrentKey" !in options && Prop(defaults, "pageCurrentKey").Str? ==>
            st.pageCurrentKey == defaults["pageCurrentKey"].s)
      && ("pageCurrentKey" in options && options["pageCurrentKey"].Undef? ==> st.pageCurrentKey == "current")
      && (Prop(options, "defaultPageSize") != Undef ==> st.defaultPageSize == options["defaultPageSize"])
      && ("defaultPageSize" !in options && "defaultPageSize" !in defaults ==> st.defaultPageSize == Num(10.0))
  {
  }

  /** With no options anywhere, the built-in defaults apply. */
  lemma NoOptionsDefaults()
    ensures KeysWellTyped(map[]) && SettingsOf(Merged(map[], map[])) == DefaultSettings
  {
  }

  // ---------------------------------------------------------------------
  // The options handed to `useFetch`
  // ---------------------------------------------------------------------

  /** The page refs, as watch sources. */
  const PageSizeSource: Value := Reactive("pageSize")
  const PageCurrentSource: Value := Reactive("pageCurrent")

  /** The `watch` option passed on: `[]` for `false`, else the page refs before the user's sources. */
  function WatchOption(watch: Value): Value {
    if watch == Bool(false) then Arr([])
    else Arr([PageSizeSource, PageCurrentSource] + ToArray(if Truthy(watch) then watch else Arr([])))
  }

  /** `.filter(Boolean)` */
  function Truthies(s: seq<Value>): (r: seq<Value>)
    ensures forall x :: x in r <==> x in s && Truthy(x)
    ensures |r| <= |s|
    ensures (forall i :: 0 <= i < |s| ==> Truthy(s[i])) ==> r == s
  {
    if s == [] then []
    else if Truthy(s[0]) then [s[0]] + Truthies(s[1..])
    else Truthies(s[1..])
  }

  /**
   * `.filter(Boolean)` keeps order and repetitions: filtering a
   * concatenation filters each part in turn, and a single element stays
   * exactly when it is truthy.
   */
  lemma {:induction false} TruthiesAppend(a: seq<Value>, b: seq<Value>)
    ensures Truthies(a + b) == Truthies(a) + Truthies(b)
    ensures forall x :: Truthies([x]) == if Truthy(x) then [x] else []
    decreases |a|
  {
    if a != [] {
      assert (a + b)[1..] == a[1..] + b;
      TruthiesAppend(a[1..], b);
      assert Truthies([a[0]]) == if Truthy(a[0]) then [a[0]] else [] by {
        assert [a[0]][1..] == [];
      }
    } else {
      assert a + b == b;
      forall x ensures Truthies([x]) == if Truthy(x) then [x] else [] {
        assert [x][1..] == [];
      }
    }
  }

  /** The page-injecting hook. */
  const PageInjector: Value := Func("usePagination.onRequest")

  /** The `onRequest` option passed on: the page injector first, then the user's truthy hooks. */
  function OnRequestHooks(onRequest: Value): (r: seq<Value>)
    ensures |r| > 0 && r[0] == PageInjector
    ensures forall x :: x in r[1..] <==> x in ToArray(onRequest) && Truthy(x)
    ensures r[1..] == Truthies(ToArray(onRequest))
  {
    [PageInjector] + Truthies(ToArray(onRequest))
  }

  /** The second argument of `useFetch`. */
  function Forwarded(merged: Options): Options {
    Rest(merged)["watch" := WatchOption(Prop(merged, "watch"))]["onRequest" := Arr(OnRequestHooks(Prop(merged, "onRequest")))]
  }

  /**
   * `useFetch` receives no pagination option, the rewritten `watch` and
   * `onRequest`, and every other option unchanged.
   */
  lemma ForwardedOptions(merged: Options, k: string)
    ensures var o := Forwarded(merged);
      && o.Keys == (merged.Keys - PaginationKeys) + {"watch", "onRequest"}
      && o["watch"] == WatchOption(Prop(merged, "watch"))
      && o["onRequest"] == Arr(OnRequestHooks(Prop(merged, "onRequest")))
      && (k in merged && k !in PaginationKeys && k != "watch" && k != "onRequest" ==> o[k] == merged[k])
  {
    assert "watch" != "onRequest";
  }

  /**
   * What `useFetch` then watches: with `watch: false`, still the request
   * and the reactive overrides (the empty array is not `false`), but not
   * the page refs; otherwise the request, the overrides, the page refs and
   * the user's sources.
   */
  lemma PaginationWatchSources(merged: Options)
    ensures var w := Prop(merged, "watch");
      var sources := Fetch.WatchSources(ResolveOptions(Forwarded(merged)).composable);
      && (w == Bool(false) ==> sources == [Fetch.RequestSource, Fetch.OverridesSource])
      && (w != Bool(false) ==> sources == [Fetch.RequestSource, Fetch.OverridesSource, PageSizeSource, PageCurrentSource]
                                          + (if Truthy(w) then ToArray(w) else []))
  {
    ForwardedWatch(merged);
    WatchOptionSources(ResolveOptions(Forwarded(merged)).composable, Prop(merged, "watch"));
  }

  /** `useFetch` reads back the rewritten `watch`. */
  lemma ForwardedWatch(merged: Options)
    ensures ResolveOptions(Forwarded(merged)).composable.watch == WatchOption(Prop(merged, "watch"))
  {
    assert "watch" != "onRequest";
    assert Prop(Forwarded(merged), "watch") == WatchOption(Prop(merged, "watch"));
  }

  lemma WatchOptionSources(c: Composable, w: Value)
    requires c.watch == WatchOption(w)
    ensures w == Bool(false) ==> Fetch.WatchSources(c) == [Fetch.RequestSource, Fetch.OverridesSource]
    ensures w != Bool(false) ==> Fetch.WatchSources(c) == [Fetch.RequestSource, Fetch.OverridesSource, PageSizeSource, PageCurrentSource]
                                                         + (if Truthy(w) then ToArray(w) else [])
  {
    assert Fetch.WatchSources(c) == [Fetch.RequestSource, Fetch.OverridesSource] + WatchOption(w).items;
    if w != Bool(false) {
      var user := ToArray(if Truthy(w) then w else Arr([]));
      assert user == if Truthy(w) then ToArray(w) else [];
      assert [Fetch.RequestSource, Fetch.OverridesSource] + ([PageSizeSource, PageCurrentSource] + user)
          == [Fetch.RequestSource, Fetch.OverridesSource, PageSizeSource, PageCurrentSource] + user;
    }
  }

  /** The injector is the first `onRequest` hook `$fetch` receives, and no falsy hook is passed on. */
  lemma InjectorRunsFirst(merged: Options)
    ensures var hooks := Prop(ResolveOptions(Forwarded(merged)).fetchOptions, "onRequest");
      && hooks.Arr? && |hooks.items| > 0 && hooks.items[0] == PageInjector
      && forall i :: 0 <= i < |hooks.items| ==> Truthy(hooks.items[i])
  {
    assert TransportKeyList[7] == "onRequest";
    var hooks := OnRequestHooks(Prop(merged, "onRequest"));
    forall i | 0 <= i < |hooks| ensures Truthy(hooks[i]) {
      if i > 0 {
        assert hooks[i] in hooks[1..];
      }
    }
  }

  // ---------------------------------------------------------------------
  // Page injection
  // ---------------------------------------------------------------------

  /** `p[key] || fallback` */
  function Or(v: Value, fallback: Value): Value {
    if Truthy(v) then v else fallback
  }

  /** A field of an object, undefined when absent. */
  function Field(p: Value, key: string): Value
    requires p.Undef? || p.Obj?
  {
    if p.Obj? && key in p.fields then p.fields[key] else Undef
  }

  /**
   * `assignPaginationKey(p)`: a copy of `p` (`{}` when undefined) with the
   * page and size keys kept when truthy and filled in otherwise.
   */
  function AssignPaginationKey(p: Value, currentKey: string, sizeKey: string, current: Value, size: Value): (r: Value)
    requires p.Undef? || p.Obj?
    ensures r.Obj? && r.ctor == "Object"
  {
    var fields := if p.Obj? then p.fields else map[];
    PlainObject(fields[currentKey := Or(Field(p, currentKey), current)][sizeKey := Or(Field(p, sizeKey), size)])
  }

  /**
   * The copy has every key of `p` plus the two page keys; the other keys
   * keep their values; a truthy page or size already there is kept, and a
   * falsy or missing one is replaced by the ref's value.
   */
  lemma AssignKeeps(p: Value, currentKey: string, sizeKey: string, current: Value, size: Value, k: string)
    requires p.Undef? || p.Obj?
    requires currentKey != sizeKey
    ensures var r := AssignPaginationKey(p, currentKey, sizeKey, current, size);
      && r.fields.Keys == (if p.Obj? then p.fields.Keys else {}) + {currentKey, sizeKey}
      && (p.Obj? && k in p.fields && k != currentKey && k != sizeKey ==> r.fields[k] == p.fields[k])
      && r.fields[currentKey] == (if Truthy(Field(p, currentKey)) then Field(p, currentKey) else current)
      && r.fields[sizeKey] == (if Truthy(Field(p, sizeKey)) then Field(p, sizeKey) else size)
  {
  }

  /** Injecting twice is injecting once, whatever the refs hold. */
  lemma AssignIdempotent(p: Value, currentKey: string, sizeKey: string, current: Value, size: Value)
    requires p.Undef? || p.Obj?
    ensures var r := AssignPaginationKey(p, currentKey, sizeKey, current, size);
      AssignPaginationKey(r, currentKey, sizeKey, current, size) == r
  {
    var r := AssignPaginationKey(p, currentKey, sizeKey, current, size);
    var r2 := AssignPaginationKey(r, currentKey, sizeKey, current, size);
    assert r2.fields == r.fields;
  }

  /** `context.options` as the `onRequest` hooks see it. */
  class RequestContext {
    var query: Value
    var params: Value

    constructor (query: Value, params: Value)
      ensures this.query == query && this.params == params
    {
      this.query := query;
      this.params := params;
    }
  }

  // ---------------------------------------------------------------------
  // Totals
  // ---------------------------------------------------------------------

  predicate IsNumber(v: Value) {
    v.Num? || v.NaN? || v.Infinity?
  }

  /**
   * `Number(v)` as the division applies it: numbers as they are, null 0,
   * booleans 0 or 1, a blank string 0, a string of decimal digits its
   * value, and NaN for everything else.
   */
  function ToNumber(v: Value): (r: Value)
    ensures IsNumber(r)
    ensures IsNumber(v) ==> r == v
  {
    match v
    case Num(_) => v
    case NaN => v
    case Infinity(_) => v
    case Null => Num(0.0)
    case Bool(b) => Num(if b then 1.0 else 0.0)
    case Str(s) =>
      if IsBlank(s) then Num(0.0)
      else if AllDigits(s) then Num(DecimalValue(s) as real)
      else NaN
    case _ => NaN
  }

  /** IEEE-754 division `x / y` on numbers (without the sign of zero). */
  function Divide(x: Value, y: Value): (r: Value)
    requires IsNumber(x) && IsNumber(y)
    ensures IsNumber(r)
    ensures x.Num? && y.Num? && y.n != 0.0 ==> r == Num(x.n / y.n)
  {
    if x.NaN? || y.NaN? then NaN
    else if x.Infinity? && y.Infinity? then NaN
    else if x.Infinity? then Infinity(x.negative != (y.n < 0.0))
    else if y.Infinity? then Num(0.0)
    else if y.n == 0.0 then (if x.n == 0.0 then NaN else Infinity(x.n < 0.0))
    else Num(x.n / y.n)
  }

  /** The least integer not below `x`. */
  function CeilReal(x: real): int {
    -((-x).Floor)
  }

  lemma CeilRealBounds(x: real)
    ensures x <= CeilReal(x) as real < x + 1.0
  {
  }

  /** `Math.ceil` */
  function Ceil(x: Value): (r: Value)
    requires IsNumber(x)
    ensures IsNumber(r)
    ensures !x.Num? ==> r == x
  {
    if x.Num? then Num(CeilReal(x.n) as real) else x
  }

  /** `total`: `get(data, totalKey, 0)` */
  function TotalOf(data: Value, totalKey: string): Value {
    GetValue(data, totalKey, Num(0.0))
  }

  /** `pageTotal`: `get(data, pageTotalKey, Math.ceil(total / pageSize))` */
  function PageTotalOf(data: Value, pageTotalKey: string, total: Value, pageSize: Value): Value {
    GetValue(data, pageTotalKey, Ceil(Divide(ToNumber(total), ToNumber(pageSize))))
  }

  /**
   * The computed page count: for a total of `t` items and `s` items a page,
   * the least `n` with `n * s >= t`.
   */
  lemma {:induction false} PageCount(t: nat, s: nat)
    requires s > 0
    ensures var r := Ceil(Divide(Num(t as real), Num(s as real)));
      && r.Num? && r.n == CeilReal(t as real / s as real) as real
      && (r.n - 1.0) * (s as real) < t as real <= r.n * (s as real)
  {
    var q := t as real / s as real;
    var n := CeilReal(q) as real;
    CeilRealBounds(q);
    assert q * (s as real) == t as real;
    ScaleMonotone(q, n, s as real);
    ScaleMonotone(n - 1.0, q, s as real);
  }

  lemma ScaleMonotone(a: real, b: real, c: real)
    requires c > 0.0
    ensures a <= b ==> a * c <= b * c
    ensures a < b ==> a * c < b * c
  {
  }

  /**
   * A page size of zero gives an infinite page count for a positive total
   * and NaN for a zero total; so does a total the division cannot read.
   */
  lemma ZeroPageSize(t: nat)
    ensures t > 0 ==> Ceil(Divide(Num(t as real), Num(0.0))) == Infinity(false)
    ensures Ceil(Divide(Num(0.0), Num(0.0))) == NaN
    ensures Ceil(Divide(ToNumber(Undef), Num(10.0))) == NaN
  {
  }

  /** A path with no delimiters, quotes or blanks selects one field. */
  lemma GetPlainKey(data: Value, key: string, default: Value)
    requires PlainKey(key)
    ensures GetValue(data, key, default) ==
      (if data.Obj? && key in data.fields && !data.fields[key].Undef? then data.fields[key]
       else if data.Arr? && ParseIndex(key).Some? && ParseIndex(key).value < |data.items| && !data.items[ParseIndex(key).value].Undef?
         then data.items[ParseIndex(key).value]
       else default)
  {
    assert Rebuild([key], "") == key;
    GetNested(data, [key], "", default);
  }

  /** Before any data (null or undefined), `total` is 0 and so is `pageTotal` for a positive page size. */
  lemma TotalsWithoutData(data: Value, st: Settings, size: nat)
    requires Nullish(data) && size > 0
    ensures TotalOf(data, st.totalKey) == Num(0.0)
    ensures PageTotalOf(data, st.pageTotalKey, TotalOf(data, st.totalKey), Num(size as real)) == Num(0.0)
  {
    var segs := Split(st.totalKey);
    assert segs != [];
    var segs2 := Split(st.pageTotalKey);
    assert segs2 != [];
    CeilRealBounds(0.0);
  }

  lemma PlainTotalKeys()
    ensures PlainKey("total") && PlainKey("totalPage")
  {
    assert forall i :: 0 <= i < |"total"| ==> !IsDelimiter("total"[i]) && !IsQuote("total"[i]);
    assert !IsJsSpace("total"[0]);
    assert forall i :: 0 <= i < |"totalPage"| ==> !IsDelimiter("totalPage"[i]) && !IsQuote("totalPage"[i]);
    assert !IsJsSpace("totalPage"[0]);
  }

  /**
   * The returns test: a response with 100 items in total and no page count
   * gives `total` 100 and `pageTotal` 10 for pages of 10, and 5 for pages of 20.
   */
  lemma TotalsTestScenario(body: map<string, Value>)
    requires "total" in body && body["total"] == Num(100.0) && "totalPage" !in body
    ensures TotalOf(PlainObject(body), DefaultSettings.totalKey) == Num(100.0)
    ensures PageTotalOf(PlainObject(body), DefaultSettings.pageTotalKey, Num(100.0), Num(10.0)) == Num(10.0)
    ensures PageTotalOf(PlainObject(body), DefaultSettings.pageTotalKey, Num(100.0), Num(20.0)) == Num(5.0)
  {
    PlainTotalKeys();
    GetPlainKey(PlainObject(body), "total", Num(0.0));
    PageCount(100, 10);
    PageCount(100, 20);
    GetPlainKey(PlainObject(body), "totalPage", Ceil(Divide(Num(100.0), Num(10.0))));
    GetPlainKey(PlainObject(body), "totalPage", Ceil(Divide(Num(100.0), Num(20.0))));
  }

  // ---------------------------------------------------------------------
  // The refs
  // ---------------------------------------------------------------------

  /** The refs of one `usePagination` call and its page-injecting hook. */
  class Paginator {
    const settings: Settings
    var pageSize: Value
    var pageCurrent: Value

    /** `pageSize` starts at `defaultPageSize` and `pageCurrent` at 1. */
    constructor (defaults: Options, options: Options)
      requires KeysWellTyped(Merged(defaults, options))
      ensures settings == SettingsOf(Merged(defaults, options))
      ensures pageSize == settings.defaultPageSize && pageCurrent == Num(1.0)
    {
      settings := SettingsOf(Merged(defaults, options));
      pageSize := SettingsOf(Merged(defaults, options)).defaultPageSize;
      pageCurrent := Num(1.0);
    }

    /** The hook: inject the current page and size into both `query` and `params`. */
    method InjectPage(context: RequestContext)
      requires context.query.Undef? || context.query.Obj?
      requires context.params.Undef? || context.params.Obj?
      modifies context
      ensures context.query == AssignPaginationKey(old(context.query), settings.pageCurrentKey, settings.pageSizeKey, pageCurrent, pageSize)
      ensures context.params == AssignPaginationKey(old(context.params), settings.pageCurrentKey, settings.pageSizeKey, pageCurrent, pageSize)
    {
      context.query := AssignPaginationKey(context.query, settings.pageCurrentKey, settings.pageSizeKey, pageCurrent, pageSize);
      context.params := AssignPaginationKey(context.params, settings.pageCurrentKey, settings.pageSizeKey, pageCurrent, pageSize);
    }

    function Total(data: Value): Value {
      TotalOf(data, settings.totalKey)
    }

    function PageTotal(data: Value): Value
      reads this
    {
      PageTotalOf(data, settings.pageTotalKey, Total(data), pageSize)
    }
  }

  /**
   * The override test: with `pageCurrentKey: 'pageCurrent'` and no query of
   * its own, the first request carries page 1 under that key and, once
   * `pageCurrent` is set to 2, the next carries page 2.
   */
  method PageKeyTestScenario()
  {
    var pager := new Paginator(map[], map["pageCurrentKey" := Str("pageCurrent")]);
    assert pager.settings.pageCurrentKey == "pageCurrent";
    var first := new RequestContext(Undef, Undef);
    pager.InjectPage(first);
    assert first.query.fields["pageCurrent"] == Num(1.0);
    assert first.query.fields["pageSize"] == Num(10.0);
    pager.pageCurrent := Num(2.0);
    var second := new RequestContext(Undef, Undef);
    pager.InjectPage(second);
    assert second.query.fields["pageCurrent"] == Num(2.0);
  }

  // ---------------------------------------------------------------------
  // create
  // ---------------------------------------------------------------------

  /** A `usePagination` with its preset defaults. */
  datatype Factory = Factory(defaults: Options)

  /** `usePagination.create(newDefaults)`: the newer defaults win. */
  function Create(f: Factory, newDefaults: Options): Factory {
    Factory(Spread(f.defaults, newDefaults))
  }

  /** The copy stored under `defaultOptionsKey`. */
  function StoredDefaults(f: Factory): Options {
    f.defaults
  }

  /**
   * Precedence through `create`: the call site over the newer defaults over
   * the older ones, and keys set at any level are kept.
   */
  lemma CreatePrecedence(f: Factory, newDefaults: Options, options: Options, k: string)
    ensures var merged := Merged(Create(f, newDefaults).defaults, options);
      && merged.Keys == f.defaults.Keys + newDefaults.Keys + options.Keys
      && (k in options ==> merged[k] == options[k])
      && (k !in options && k in newDefaults ==> merged[k] == newDefaults[k])
      && (k !in options && k !in newDefaults && k in f.defaults ==> merged[k] == f.defaults[k])
    ensures StoredDefaults(Create(f, newDefaults)) == f.defaults + newDefaults
    ensures Create(Create(f, newDefaults), options) == Create(f, newDefaults + options)
  {
  }
}

=== FILE: throttle.dfy ===
/**
 * The throttle filter of src/core/utils/useThrottleFn.ts.  The closure
 * variables `lastExec`, `timer`, `isLeading`, `lastRejector` and
 * `lastValue` become the fields of a `State`; `Call`, `TrailingFired` and
 * `ResetFired` say how one call and the expiry of each kind of timer change
 * it, and `ThrottleFilter` is the imperative filter proved to follow them.
 */
module Throttle {
  import opened Wrappers
  import opened Timers

  /** `useThrottleFn`'s default delay, in milliseconds. */
  const DefaultDelay: int := 200

  /** The three flags, fixed when the filter is created. */
  datatype Config = Config(trailing: bool, leading: bool, rejectOnCancel: bool)

  /** `useThrottleFn(fn, ms)`: no trailing call, a leading call, resolve on cancel. */
  const UseThrottleFnDefaults: Config := Config(false, true, false)

  /** `throttleFilter(ms)` with its positional flags left out. */
  const FilterDefaults: Config := Config(true, true, false)

  /**
   * The `timer` variable: empty, holding a trailing-call timer, or holding
   * the timer that only sets `isLeading` back (scheduled or already fired;
   * the variable is not reset when it fires).
   */
  datatype Slot = Empty | TrailingArmed(timer: Timer) | ResetArmed(due: nat) | ResetSpent

  /** What `lastValue` holds. */
  datatype Returned = RetUndefined | RetInvocation(invocation: nat) | RetPromise(promise: nat)

  datatype State = State(
    lastExec: int,
    slot: Slot,
    isLeading: bool,
    lastRejector: Option<nat>,   // the promise `lastRejector` settles; None is `noop`
    lastValue: Returned,
    promises: seq<Settlement>,   // the promises of trailing calls, in creation order
    invocations: nat)

  const Initial: State := State(0, Empty, true, None, RetUndefined, [], 0)

  /** What every reachable state satisfies; in particular at most one promise is pending, the trailing timer's. */
  predicate Valid(s: State) {
    && (s.slot.TrailingArmed? ==>
          && s.slot.timer.owner < |s.promises| && s.promises[s.slot.timer.owner].Pending?
          && s.lastRejector == Some(s.slot.timer.owner))
    && (s.lastRejector.Some? ==> s.lastRejector.value < |s.promises|)
    && (s.lastValue.RetPromise? ==> s.lastValue.promise < |s.promises|)
    && (s.lastValue.RetInvocation? ==> s.lastValue.invocation < s.invocations)
    && FollowsEarlier(s.promises, s.invocations)
    && OnlyOwnerPending(s.promises, s.slot)
  }

  /** Every resolved promise follows an invocation that has happened. */
  predicate FollowsEarlier(ps: seq<Settlement>, invocations: nat) {
    forall i :: 0 <= i < |ps| && ps[i].Follows? ==> ps[i].invocation < invocations
  }

  /** The only pending promise, if any, is the trailing timer's. */
  predicate OnlyOwnerPending(ps: seq<Settlement>, slot: Slot) {
    forall i :: 0 <= i < |ps| && ps[i].Pending? ==> slot.TrailingArmed? && slot.timer.owner == i
  }

  /** `clear()`: cancel whatever timer the variable holds and run `lastRejector`. */
  function Cleared(s: State, rejectOnCancel: bool): State {
    if s.slot.Empty? then s
    else
      var ps := if s.lastRejector.Some? then Settle(s.promises, s.lastRejector.value, Cancelled(rejectOnCancel)) else s.promises;
      s.(slot := Empty, lastRejector := None, promises := ps)
  }

  /** `invoke()` at time `now` on the leading edge: record the time and the result. */
  function InvokeNow(s: State, now: nat): State {
    s.(lastExec := now, lastValue := RetInvocation(s.invocations), invocations := s.invocations + 1)
  }

  /** A trailing call's promise and timer: `lastValue = new Promise(...)`. */
  function ArmTrailing(s: State, due: nat): State {
    var p := |s.promises|;
    s.(lastValue := RetPromise(p), lastRejector := Some(p), promises := s.promises + [Pending],
       slot := TrailingArmed(Timer(due, p)))
  }

  function Max0(x: int): nat {
    if x < 0 then 0 else x
  }

  /** The branch on the elapsed time: invoke now, arm a trailing call, or do nothing. */
  function Window(s: State, now: nat, elapsed: int, duration: int, cfg: Config): State {
    if elapsed > duration && (cfg.leading || !s.isLeading) then InvokeNow(s, now)
    else if cfg.trailing then ArmTrailing(s, now + Max0(duration - elapsed))
    else s
  }

  /** `if (!leading && !timer) timer = setTimeout(() => isLeading = true, duration)` */
  function ArmReset(s: State, now: nat, duration: nat, cfg: Config): State {
    if !cfg.leading && s.slot.Empty? then s.(slot := ResetArmed(now + duration)) else s
  }

  /** One call of the filter at time `now`; the call returns the new `lastValue`. */
  function Call(s: State, now: nat, duration: int, cfg: Config): State {
    var elapsed := now - s.lastExec;
    var s1 := Cleared(s, cfg.rejectOnCancel);
    if duration <= 0 then InvokeNow(s1, now)
    else ArmReset(Window(s1, now, elapsed, duration, cfg), now, duration, cfg).(isLeading := false)
  }

  /** The trailing timer expires: invoke, resolve its promise with the invocation, clear. */
  function TrailingFired(s: State, now: nat, rejectOnCancel: bool): State
    requires s.slot.TrailingArmed? && s.slot.timer.due <= now
  {
    var p := s.slot.timer.owner;
    var k := s.invocations;
    var s1 := s.(lastExec := now, isLeading := true, lastValue := RetInvocation(k),
                 invocations := k + 1, promises := Settle(s.promises, p, Follows(k)));
    Cleared(s1, rejectOnCancel)
  }

  /** The timer that ends a window without a leading call expires. */
  function ResetFired(s: State, now: nat): State
    requires s.slot.ResetArmed? && s.slot.due <= now
  {
    s.(isLeading := true, slot := ResetSpent)
  }

  // ---------------------------------------------------------------------
  // Properties
  // ---------------------------------------------------------------------

  lemma ClearKeeps(s: State, roc: bool)
    requires Valid(s)
    ensures var s' := Cleared(s, roc);
      && Settles(s.promises, s'.promises)
      && !s'.slot.TrailingArmed? && s'.invocations == s.invocations
      && (forall i :: 0 <= i < |s'.promises| ==> !s'.promises[i].Pending?)
      && Valid(s')
    ensures s.slot.TrailingArmed? ==>
      Cleared(s, roc).promises == s.promises[s.slot.timer.owner := Cancelled(roc)]
    ensures !s.slot.TrailingArmed? ==> Cleared(s, roc).promises == s.promises
  {
  }

  /** The state right after `clear()`: nothing pending and no trailing timer. */
  predicate Quiet(s: State) {
    && Valid(s) && !s.slot.TrailingArmed?
    && forall i :: 0 <= i < |s.promises| ==> !s.promises[i].Pending?
  }

  lemma QuietSteps(s: State, now: nat, due: nat)
    requires Quiet(s)
    ensures Quiet(InvokeNow(s, now)) && InvokeNow(s, now).promises == s.promises
    ensures Valid(ArmTrailing(s, due)) && Settles(s.promises, ArmTrailing(s, due).promises)
    ensures s.slot.Empty? ==> Quiet(s.(slot := ResetArmed(due)))
  {
    var a := ArmTrailing(s, due);
    assert forall i :: 0 <= i < |a.promises| && a.promises[i].Pending? ==> i == |s.promises|;
  }

  lemma LeadingFlagIrrelevant(s: State, b: bool)
    requires Valid(s)
    ensures Valid(s.(isLeading := b))
  {
  }

  lemma WindowKeepsValid(s1: State, now: nat, elapsed: int, duration: int, cfg: Config)
    requires Quiet(s1)
    ensures var s3 := ArmReset(Window(s1, now, elapsed, duration, cfg), now, Max0(duration), cfg);
      Valid(s3) && Settles(s1.promises, s3.promises)
  {
    QuietSteps(s1, now, now + Max0(duration - elapsed));
    var s2 := Window(s1, now, elapsed, duration, cfg);
    if !cfg.leading && s2.slot.Empty? {
      QuietSteps(s1, now, now + Max0(duration));
      QuietSteps(InvokeNow(s1, now), now, now + Max0(duration));
    }
  }

  /**
   * Every step keeps the invariant (at most one pending promise, the
   * trailing timer's) and never changes a settled promise.
   */
  lemma CallKeepsValid(s: State, now: nat, duration: int, cfg: Config)
    requires Valid(s)
    ensures Valid(Call(s, now, duration, cfg))
    ensures Settles(s.promises, Call(s, now, duration, cfg).promises)
  {
    ClearKeeps(s, cfg.rejectOnCancel);
    var s1 := Cleared(s, cfg.rejectOnCancel);
    if duration > 0 {
      WindowedCallKeepsValid(s, s1, now, duration, cfg);
    } else {
      QuietSteps(s1, now, now);
      assert Call(s, now, duration, cfg) == InvokeNow(s1, now);
    }
  }

  /**
   * A call cancels a trailing call still waiting: `clear()` runs its
   * `lastRejector`, which resolves the promise with undefined, or rejects it
   * under `rejectOnCancel`.
   */
  lemma CallCancelsTrailing(s: State, now: nat, duration: int, cfg: Config)
    requires Valid(s) && s.slot.TrailingArmed?
    ensures Call(s, now, duration, cfg).promises[s.slot.timer.owner] == Cancelled(cfg.rejectOnCancel)
  {
    ClearKeeps(s, cfg.rejectOnCancel);
    CallKeepsValid(s, now, duration, cfg);
  }

  lemma WindowedCallKeepsValid(s: State, s1: State, now: nat, duration: int, cfg: Config)
    requires duration > 0 && s1 == Cleared(s, cfg.rejectOnCancel)
    requires Quiet(s1) && Settles(s.promises, s1.promises)
    ensures Valid(Call(s, now, duration, cfg))
    ensures Settles(s.promises, Call(s, now, duration, cfg).promises)
  {
    WindowKeepsValid(s1, now, now - s.lastExec, duration, cfg);
    var s3 := ArmReset(Window(s1, now, now - s.lastExec, duration, cfg), now, duration, cfg);
    assert Call(s, now, duration, cfg) == s3.(isLeading := false);
    LeadingFlagIrrelevant(s3, false);
    SettlesTransitive(s.promises, s1.promises, s3.promises);
  }

  lemma FiredKeepValid(s: State, now: nat, roc: bool)
    requires Valid(s)
    ensures s.slot.TrailingArmed? && s.slot.timer.due <= now ==>
      Valid(TrailingFired(s, now, roc)) && Settles(s.promises, TrailingFired(s, now, roc).promises)
      && TrailingFired(s, now, roc).promises[s.slot.timer.owner] == Follows(s.invocations)
      && TrailingFired(s, now, roc).lastExec == now && TrailingFired(s, now, roc).isLeading
      && TrailingFired(s, now, roc).invocations == s.invocations + 1
      && TrailingFired(s, now, roc).lastValue == RetInvocation(s.invocations)
    ensures s.slot.ResetArmed? && s.slot.due <= now ==>
      Valid(ResetFired(s, now)) && ResetFired(s, now).promises == s.promises
  {
    if s.slot.TrailingArmed? && s.slot.timer.due <= now {
      var p := s.slot.timer.owner;
      var k := s.invocations;
      var s1 := s.(lastExec := now, isLeading := true, lastValue := RetInvocation(k),
                   invocations := k + 1, promises := Settle(s.promises, p, Follows(k)));
      assert s1.promises[p] == Follows(k);
      assert s1.lastRejector == Some(p);
      var s2 := TrailingFired(s, now, roc);
      assert s2.promises == s1.promises;
    }
  }

  /**
   * Every invocation a call makes with a positive delay happens more than
   * `duration` after the previous execution; the call then returns that
   * invocation's result.
   */
  lemma CallInvokesOnlyAfterWindow(s: State, now: nat, duration: int, cfg: Config)
    requires duration > 0
    ensures var s' := Call(s, now, duration, cfg);
      s'.invocations > s.invocations <==> now - s.lastExec > duration && (cfg.leading || !s.isLeading)
    ensures var s' := Call(s, now, duration, cfg);
      s'.invocations > s.invocations ==>
        s'.invocations == s.invocations + 1 && s'.lastExec == now && s'.lastValue == RetInvocation(s.invocations)
    ensures !Call(s, now, duration, cfg).isLeading
  {
  }

  /**
   * A call inside the window invokes nothing: without `trailing` it returns
   * the previous `lastValue`; with `trailing` it returns a fresh pending
   * promise whose timer is due exactly `duration` after the last execution.
   */
  lemma CallInsideWindow(s: State, now: nat, duration: int, cfg: Config)
    requires Valid(s) && duration > 0 && now - s.lastExec <= duration && now >= s.lastExec
    ensures var s' := Call(s, now, duration, cfg);
      && s'.invocations == s.invocations
      && (!cfg.trailing ==> s'.lastValue == s.lastValue)
      && (cfg.trailing ==>
            && s'.lastValue == RetPromise(|s.promises|)
            && s'.promises[|s.promises|] == Pending
            && s'.slot == TrailingArmed(Timer(s.lastExec + duration, |s.promises|)))
  {
  }

  /**
   * `useThrottleFn(fn)` with its defaults: a call within 200 ms of the last
   * execution is dropped and returns the previous value.
   */
  lemma DefaultsDropInsideWindow(s: State, now: nat)
    requires Valid(s) && now >= s.lastExec && now - s.lastExec <= DefaultDelay
    ensures var s' := Call(s, now, DefaultDelay, UseThrottleFnDefaults);
      s'.invocations == s.invocations && s'.lastValue == s.lastValue && !s'.slot.TrailingArmed?
  {
    CallInsideWindow(s, now, DefaultDelay, UseThrottleFnDefaults);
  }

  /**
   * `throttleFilter(ms)` with its positional flags left out is leading and
   * trailing: a call after the window invokes at once, and a call inside it
   * returns a pending promise settled when the window ends.
   */
  lemma FilterDefaultsLeadAndTrail(s: State, now: nat, duration: int)
    requires Valid(s) && duration > 0 && now >= s.lastExec
    ensures var s' := Call(s, now, duration, FilterDefaults);
      now - s.lastExec > duration ==>
        s'.invocations == s.invocations + 1 && s'.lastValue == RetInvocation(s.invocations)
    ensures var s' := Call(s, now, duration, FilterDefaults);
      now - s.lastExec <= duration ==>
        && s'.invocations == s.invocations
        && s'.lastValue == RetPromise(|s.promises|) && s'.promises[|s.promises|] == Pending
        && s'.slot == TrailingArmed(Timer(s.lastExec + duration, |s.promises|))
  {
    CallInvokesOnlyAfterWindow(s, now, duration, FilterDefaults);
    if now - s.lastExec <= duration {
      CallInsideWindow(s, now, duration, FilterDefaults);
    }
  }

  /** A trailing call is made no earlier than `duration` after the last execution. */
  lemma TrailingNotBeforeWindowEnd(s: State, now: nat, duration: int, cfg: Config)
    requires duration > 0 && cfg.trailing
    requires Call(s, now, duration, cfg).slot.TrailingArmed?
    ensures Call(s, now, duration, cfg).slot.timer.due >= s.lastExec + duration
  {
  }

  /** With `leading` off, a call in a fresh window (`isLeading`) never invokes at once. */
  lemma NoLeadingCall(s: State, now: nat, duration: int, cfg: Config)
    requires duration > 0 && !cfg.leading && s.isLeading
    ensures Call(s, now, duration, cfg).invocations == s.invocations
    ensures !Call(s, now, duration, cfg).isLeading
  {
  }

  /** A delay of zero or less sends every call straight through, leaving `isLeading` as it was. */
  lemma NoDelayInvokes(s: State, now: nat, duration: int, cfg: Config)
    requires duration <= 0
    ensures var s' := Call(s, now, duration, cfg);
      s'.invocations == s.invocations + 1 && s'.lastValue == RetInvocation(s.invocations)
      && s'.isLeading == s.isLeading && !s'.slot.TrailingArmed?
  {
  }

  /**
   * The throttle test: with `useThrottleFn`'s flags and a 100 ms delay,
   * `await execute()`, two calls in a row, 150 ms of sleep and a last
   * `await execute()` make two invocations; the two calls inside the window
   * hand back the first invocation's result.
   */
  lemma ThrottleTestScenario()
    ensures var s1 := Call(Initial, 1_000_000, 100, UseThrottleFnDefaults);
      var s2 := Call(s1, 1_000_000, 100, UseThrottleFnDefaults);
      var s3 := Call(s2, 1_000_000, 100, UseThrottleFnDefaults);
      var s4 := Call(s3, 1_000_150, 100, UseThrottleFnDefaults);
      && s1.invocations == 1 && s3.invocations == 1 && s4.invocations == 2
      && s2.lastValue == RetInvocation(0) && s3.lastValue == RetInvocation(0)
      && s4.lastValue == RetInvocation(1)
  {
  }

  // ---------------------------------------------------------------------
  // The filter itself
  // ---------------------------------------------------------------------

  /** `throttleFilter(ms, trailing, leading, rejectOnCancel)`: its closure state and callbacks. */
  class ThrottleFilter {
    const cfg: Config
    var lastExec: int
    var slot: Slot
    var isLeading: bool
    var lastRejector: Option<nat>
    var lastValue: Returned
    var promises: seq<Settlement>
    var invocations: nat

    function Current(): State
      reads this
    {
      State(lastExec, slot, isLeading, lastRejector, lastValue, promises, invocations)
    }

    constructor (cfg: Config)
      ensures this.cfg == cfg && Current() == Initial
    {
      this.cfg := cfg;
      lastExec, slot, isLeading, lastRejector := 0, Empty, true, None;
      lastValue, promises, invocations := RetUndefined, [], 0;
    }

    method Clear()
      modifies this
      ensures Current() == Cleared(old(Current()), cfg.rejectOnCancel)
    {
      if slot != Empty {
        slot := Empty;
        if lastRejector.Some? {
          promises := Settle(promises, lastRejector.value, Cancelled(cfg.rejectOnCancel));
        }
        lastRejector := None;
      }
    }

    method Invoke(now: nat)
      modifies this
      ensures Current() == InvokeNow(old(Current()), now)
    {
      lastExec := now;
      lastValue := RetInvocation(invocations);
      invocations := invocations + 1;
    }

    /** `filter(invoke)` at time `now`; the call hands back `r`. */
    method Filter(now: nat, duration: int) returns (r: Returned)
      modifies this
      ensures Current() == Call(old(Current()), now, duration, cfg)
      ensures r == lastValue
    {
      var elapsed := now - lastExec;
      Clear();
      if duration <= 0 {
        Invoke(now);
        return lastValue;
      }
      if elapsed > duration && (cfg.leading || !isLeading) {
        Invoke(now);
      } else if cfg.trailing {
        var p := |promises|;
        lastValue := RetPromise(p);
        lastRejector := Some(p);
        slot := TrailingArmed(Timer(now + Max0(duration - elapsed), p));
        promises := promises + [Pending];
      }
      if !cfg.leading && slot == Empty {
        slot := ResetArmed(now + duration);
      }
      isLeading := false;
      r := lastValue;
    }

    /** The trailing timer's callback, run at `now`. */
    method FireTrailing(now: nat)
      requires slot.TrailingArmed? && slot.timer.due <= now
      modifies this
      ensures Current() == TrailingFired(old(Current()), now, cfg.rejectOnCancel)
    {
      var p := slot.timer.owner;
      var k := invocations;
      lastExec := now;
      isLeading := true;
      Invoke(now);
      promises := Settle(promises, p, Follows(k));
      Clear();
    }

    /** The callback that only sets `isLeading`, run at `now`. */
    method FireReset(now: nat)
      requires slot.ResetArmed? && slot.due <= now
      modifies this
      ensures Current() == ResetFired(old(Current()), now)
    {
      isLeading := true;
      slot := ResetSpent;
    }
  }
}

=== FILE: timeout_fn.dfy ===
/**
 * `useTimeoutFn` of src/core/utils/useTimeoutFn.ts: one restartable timer
 * and the `isPending` flag that reports it.  `State` and the functions on
 * it say what `start`, `stop` and the timer's expiry do; `TimeoutFn` is the
 * object whose methods are proved to follow them.
 */
module Timeout {
  import opened Wrappers

  /** The `immediate` option's default. */
  const DefaultImmediate: bool := true

  datatype State = State(
    isPending: bool,
    timer: Option<nat>,   // the due time of the scheduled callback; None is `timer = null`
    callbacks: nat)       // how many times the callback has run

  /** A negative delay is treated as zero by `setTimeout`. */
  function Delay(interval: int): nat {
    if interval < 0 then 0 else interval
  }

  /** `isPending` reports exactly whether a callback is scheduled. */
  predicate Valid(s: State) {
    s.isPending <==> s.timer.Some?
  }

  /** `clear()` */
  function Cleared(s: State): State {
    s.(timer := None)
  }

  /** `start()` at time `now`: clear, set `isPending`, arm one timer. */
  function Started(s: State, now: nat, interval: int): State {
    Cleared(s).(isPending := true, timer := Some(now + Delay(interval)))
  }

  /** `stop()` */
  function Stopped(s: State): State {
    Cleared(s.(isPending := false))
  }

  /** The timer expires: `isPending` and `timer` are reset, then the callback runs. */
  function Fired(s: State, now: nat): State
    requires s.timer.Some? && s.timer.value <= now
  {
    s.(isPending := false, timer := None, callbacks := s.callbacks + 1)
  }

  /** `useTimeoutFn(cb, interval, { immediate })` at time `now`. */
  function Created(immediate: bool, now: nat, interval: int): State {
    var s := State(false, None, 0);
    if immediate then Started(s.(isPending := true), now, interval) else s
  }

  lemma StepsKeepValid(s: State, now: nat, interval: int, immediate: bool)
    ensures Valid(Created(immediate, now, interval))
    ensures Valid(Started(s, now, interval)) && Valid(Stopped(s))
    ensures s.timer.Some? && s.timer.value <= now ==> Valid(Fired(s, now))
  {
  }

  /**
   * `start` leaves at most one timer outstanding: starting again replaces
   * the earlier timer, whatever state it was in, without running the callback.
   */
  lemma RestartReplaces(s: State, t1: nat, i1: int, t2: nat, i2: int)
    ensures Started(Started(s, t1, i1), t2, i2) == Started(s, t2, i2)
    ensures Started(s, t1, i1).callbacks == s.callbacks
    ensures Started(s, t1, i1).timer == Some(t1 + Delay(i1)) && Started(s, t1, i1).isPending
  {
  }

  /** `stop` cancels the timer without running the callback, and a second `stop` changes nothing. */
  lemma StopIdempotent(s: State)
    ensures Stopped(Stopped(s)) == Stopped(s)
    ensures !Stopped(s).isPending && Stopped(s).timer.None? && Stopped(s).callbacks == s.callbacks
  {
  }

  /** With the default `immediate`, the timer is running right after creation; otherwise nothing is. */
  lemma CreationStarts(now: nat, interval: int)
    ensures Created(DefaultImmediate, now, interval).isPending
    ensures Created(DefaultImmediate, now, interval).timer == Some(now + Delay(interval))
    ensures !Created(false, now, interval).isPending && Created(false, now, interval).timer.None?
  {
  }

  /** The callback runs once per expiry, and sees `isPending` false and no timer. */
  lemma FireRunsOnce(s: State, now: nat)
    requires s.timer.Some? && s.timer.value <= now
    ensures Fired(s, now).callbacks == s.callbacks + 1
    ensures !Fired(s, now).isPending && Fired(s, now).timer.None?
  {
  }

  /** The object `useTimeoutFn` returns, with its closure state. */
  class TimeoutFn {
    var isPending: bool
    var timer: Option<nat>
    var callbacks: nat

    function Current(): State
      reads this
    {
      State(isPending, timer, callbacks)
    }

    constructor (immediate: bool, now: nat, interval: int)
      ensures Current() == Created(immediate, now, interval)
    {
      isPending, timer, callbacks := false, None, 0;
      new;
      if immediate {
        isPending := true;
        Start(now, interval);
      }
    }

    method Clear()
      modifies this
      ensures Current() == Cleared(old(Current()))
    {
      if timer.Some? {
        timer := None;
      }
    }

    method Stop()
      modifies this
      ensures Current() == Stopped(old(Current()))
    {
      isPending := false;
      Clear();
    }

    method Start(now: nat, interval: int)
      modifies this
      ensures Current() == Started(old(Current()), now, interval)
    {
      Clear();
      isPending := true;
      timer := Some(now + Delay(interval));
    }

    /** The timer's callback wrapper, run at `now`; the callback itself is counted. */
    method Fire(now: nat)
      requires timer.Some? && timer.value <= now
      modifies this
      ensures Current() == Fired(old(Current()), now)
    {
      isPending := false;
      timer := None;
      callbacks := callbacks + 1;
    }

    /** Scope disposal runs `stop`. */
    method Dispose()
      modifies this
      ensures Current() == Stopped(old(Current()))
    {
      Stop();
    }
  }
}

=== FILE: timeout_poll.dfy ===
/**
 * `useTimeoutPoll` of src/core/utils/useTimeoutPoll.ts: a poller that calls
 * `fn`, waits for it, and only then re-arms a `useTimeoutFn` timer.  The
 * asynchronous `fn` is split in two: `loop` starts a call, and the
 * environment later reports its outcome (`FnSettled`).  `State` and the
 * functions on it are the specification; `TimeoutPoll` is the object.
 */
module Polling {
  import opened Wrappers
  import Timeout

  datatype State = State(
    isActive: bool,
    timeout: Timeout.State,   // the inner `useTimeoutFn`, whose callback is `loop`
    fnCalls: nat,             // calls of `fn` made so far
    inFlight: nat)            // calls of `fn` not settled yet

  /** The poller before `immediate` is considered: inactive, its timer created non-immediate. */
  const Initial: State := State(false, Timeout.Created(false, 0, 0), 0, 0)

  /** `loop()` up to its `await`: calls `fn` only when active. */
  function Looped(s: State): State {
    if !s.isActive then s else s.(fnCalls := s.fnCalls + 1, inFlight := s.inFlight + 1)
  }

  /** `resume()` */
  function Resumed(s: State): State {
    if s.isActive then s else Looped(s.(isActive := true))
  }

  /** `pause()` */
  function Paused(s: State): State {
    s.(isActive := false)
  }

  /**
   * A call of `fn` settles at `now`: when it resolved, `loop` goes on to
   * `start()` the timer (active or not); when it rejected, `loop` stops there.
   */
  function FnSettled(s: State, ok: bool, now: nat, interval: int): State
    requires s.inFlight > 0
  {
    s.(inFlight := s.inFlight - 1, timeout := if ok then Timeout.Started(s.timeout, now, interval) else s.timeout)
  }

  /** The inner timer expires and runs `loop`. */
  function TimerFired(s: State, now: nat): State
    requires s.timeout.timer.Some? && s.timeout.timer.value <= now
  {
    Looped(s.(timeout := Timeout.Fired(s.timeout, now)))
  }

  /** Scope disposal: the inner `stop`, registered first, then `pause`. */
  function Disposed(s: State): State {
    Paused(s.(timeout := Timeout.Stopped(s.timeout)))
  }

  /** `useTimeoutPoll(fn, interval, { immediate })` */
  function Created(immediate: bool): State {
    if immediate then Resumed(Initial) else Initial
  }

  /** A poller starts inactive and with no timer; `immediate` resumes it, calling `fn` once. */
  lemma CreationState(immediate: bool)
    ensures !Initial.isActive && Initial.timeout.timer.None? && Initial.fnCalls == 0
    ensures Created(immediate).isActive == immediate
    ensures Created(immediate).fnCalls == (if immediate then 1 else 0)
    ensures Created(immediate).timeout.timer.None?
  {
  }

  /** `resume` on an active poller does nothing; on an inactive one it activates and calls `fn` once. */
  lemma ResumeOnce(s: State)
    ensures s.isActive ==> Resumed(s) == s
    ensures !s.isActive ==>
      Resumed(s).isActive && Resumed(s).fnCalls == s.fnCalls + 1 && Resumed(s).timeout == s.timeout
  {
  }

  /** Once paused, an expiring timer calls `fn` no more. */
  lemma PausedTimerCallsNothing(s: State, now: nat)
    requires !s.isActive && s.timeout.timer.Some? && s.timeout.timer.value <= now
    ensures TimerFired(s, now).fnCalls == s.fnCalls
    ensures TimerFired(s, now).timeout.timer.None?
  {
  }

  /** The timer is re-armed only after `fn` resolves, `interval` after that moment. */
  lemma RearmAfterFn(s: State, now: nat, interval: int)
    requires s.inFlight > 0
    ensures FnSettled(s, true, now, interval).timeout.timer == Some(now + Timeout.Delay(interval))
    ensures FnSettled(s, true, now, interval).fnCalls == s.fnCalls
    ensures FnSettled(s, false, now, interval).timeout == s.timeout
  {
  }

  /**
   * When `fn` rejects with nothing else in flight and no timer armed,
   * polling stops for good: no timer is left, and `resume` cannot restart
   * it because the poller still counts as active.
   */
  lemma RejectionStopsPolling(s: State, now: nat, interval: int)
    requires s.isActive && s.inFlight == 1 && s.timeout.timer.None?
    ensures var t := FnSettled(s, false, now, interval);
      t.timeout.timer.None? && t.inFlight == 0 && t.isActive && Resumed(t) == t
  {
  }

  /** What can happen to a poller: a call of `fn` settles, the timer expires, `resume`, `pause`. */
  datatype Event = Settle(ok: bool, at: nat, interval: int) | Expire(at: nat) | Resume | Pause

  /** The state after a sequence of events, or None when one of them is not possible at its point. */
  function Run(s: State, events: seq<Event>): Option<State>
    decreases |events|
  {
    if events == [] then Some(s)
    else
      var e := events[0];
      match e
      case Settle(ok, at, interval) =>
        if s.inFlight > 0 then Run(FnSettled(s, ok, at, interval), events[1..]) else None
      case Expire(at) =>
        if s.timeout.timer.Some? && s.timeout.timer.value <= at then Run(TimerFired(s, at), events[1..]) else None
      case Resume => Run(Resumed(s), events[1..])
      case Pause => Run(Paused(s), events[1..])
  }

  /**
   * After disposal, with only settlements and expiries to come, `fn` is
   * never called again.
   */
  lemma {:induction false} DisposedCallsNothing(s: State, events: seq<Event>)
    requires !s.isActive
    requires forall i :: 0 <= i < |events| ==> events[i].Settle? || events[i].Expire?
    ensures Run(s, events).Some? ==> Run(s, events).value.fnCalls == s.fnCalls && !Run(s, events).value.isActive
    decreases |events|
  {
    if events != [] {
      var rest := events[1..];
      assert forall i :: 0 <= i < |rest| ==> rest[i] == events[i + 1];
      match events[0]
      case Settle(ok, at, interval) =>
        if s.inFlight > 0 {
          DisposedCallsNothing(FnSettled(s, ok, at, interval), rest);
        }
      case Expire(at) =>
        if s.timeout.timer.Some? && s.timeout.timer.value <= at {
          DisposedCallsNothing(TimerFired(s, at), rest);
        }
    }
  }

  /**
   * The polling test with a 50 ms interval: `fn` is called once at
   * creation, settles, the timer fires 50 ms later and `fn` is called a
   * second time; the scope is then disposed and the count stays at two
   * whatever settles or expires afterwards.
   */
  lemma PollingTestScenario(later: seq<Event>)
    requires forall i :: 0 <= i < |later| ==> later[i].Settle? || later[i].Expire?
    ensures var s1 := Created(true);
      var s2 := FnSettled(s1, true, 1010, 50);
      var s3 := TimerFired(s2, 1060);
      var s4 := FnSettled(s3, true, 1070, 50);
      var s5 := Disposed(s4);
      && s1.fnCalls == 1 && s3.fnCalls == 2 && s5.timeout.timer.None?
      && (Run(s5, later).Some? ==> Run(s5, later).value.fnCalls == 2)
  {
    var s1 := Created(true);
    assert s1.isActive && s1.fnCalls == 1 && s1.inFlight == 1;
    var s2 := FnSettled(s1, true, 1010, 50);
    assert s2.isActive && s2.fnCalls == 1 && s2.inFlight == 0 && s2.timeout.timer == Some(1060);
    var s3 := TimerFired(s2, 1060);
    assert s3.fnCalls == 2 && s3.inFlight == 1;
    var s5 := Disposed(FnSettled(s3, true, 1070, 50));
    assert !s5.isActive && s5.fnCalls == 2 && s5.timeout.timer.None?;
    DisposedCallsNothing(s5, later);
  }

  /** The object `useTimeoutPoll` returns, with the inner timer object. */
  class TimeoutPoll {
    const timeout: Timeout.TimeoutFn
    var isActive: bool
    var fnCalls: nat
    var inFlight: nat

    function Current(): State
      reads this, timeout
    {
      State(isActive, timeout.Current(), fnCalls, inFlight)
    }

    constructor (immediate: bool)
      ensures Current() == Created(immediate)
      ensures fresh(timeout)
    {
      timeout := new Timeout.TimeoutFn(false, 0, 0);
      isActive, fnCalls, inFlight := false, 0, 0;
      new;
      if immediate {
        Resume();
      }
    }

    /** `loop()` up to its `await fn()` */
    method Loop()
      modifies this
      ensures Current() == Looped(old(Current()))
    {
      if !isActive {
        return;
      }
      fnCalls := fnCalls + 1;
      inFlight := inFlight + 1;
    }

    method Resume()
      modifies this
      ensures Current() == Resumed(old(Current()))
    {
      if !isActive {
        isActive := true;
        Loop();
      }
    }

    method Pause()
      modifies this
      ensures Current() == Paused(old(Current()))
    {
      isActive := false;
    }

    /** The rest of `loop()` once `fn` settles at `now`. */
    method SettleFn(ok: bool, now: nat, interval: int)
      requires inFlight > 0
      modifies this, timeout
      ensures Current() == FnSettled(old(Current()), ok, now, interval)
    {
      inFlight := inFlight - 1;
      if ok {
        timeout.Start(now, interval);
      }
    }

    /** The inner timer expires at `now` and runs `loop`. */
    method FireTimer(now: nat)
      requires timeout.timer.Some? && timeout.timer.value <= now
      modifies this, timeout
      ensures Current() == TimerFired(old(Current()), now)
    {
      timeout.Fire(now);
      Loop();
    }

    method Dispose()
      modifies this, timeout
      ensures Current() == Disposed(old(Current()))
    {
      timeout.Stop();
      Pause();
    }
  }
}

=== FILE: timers.dfy ===
/**
 * What the event filters share: timers scheduled on an explicit clock, the
 * variables that hold them, and the promises handed back to callers.
 * `setTimeout(cb, d)` called at time `now` becomes a timer due at
 * `now + d`; the environment fires it (a `Fire` method) at some time no
 * earlier than that.
 */
module Timers {

  /** How a promise returned by a filtered call has settled. */
  datatype Settlement =
    | Pending
    | Follows(invocation: nat)   // resolved with the promise of the given invocation of the wrapped function
    | ResolvedVoid               // resolved with undefined because the call was cancelled
    | Rejected                   // rejected because the call was cancelled (`rejectOnCancel`)

  /** A scheduled callback: when it is due, and whose promise it settles. */
  datatype Timer = Timer(due: nat, owner: nat)

  /**
   * A variable holding a timer id: never assigned, holding a scheduled
   * timer, or still holding (truthy) the id of one that has fired or been
   * cleared.
   */
  datatype Handle = NoHandle | Live(timer: Timer) | Spent

  /** Settling a promise: the first settlement wins, later ones change nothing. */
  function Settle(ps: seq<Settlement>, i: nat, s: Settlement): (r: seq<Settlement>)
    ensures |r| == |ps|
    ensures i < |ps| && ps[i].Pending? ==> r == ps[i := s]
    ensures !(i < |ps| && ps[i].Pending?) ==> r == ps
  {
    if i < |ps| && ps[i].Pending? then ps[i := s] else ps
  }

  /** `after` only adds promises and settles pending ones: a settled promise never changes. */
  predicate Settles(before: seq<Settlement>, after: seq<Settlement>) {
    && |before| <= |after|
    && forall i :: 0 <= i < |before| && !before[i].Pending? ==> after[i] == before[i]
  }

  lemma SettlesTransitive(a: seq<Settlement>, b: seq<Settlement>, c: seq<Settlement>)
    requires Settles(a, b) && Settles(b, c)
    ensures Settles(a, c)
  {
  }

  /** A promise settled by a cancellation, as the `rejectOnCancel` option chooses. */
  function Cancelled(rejectOnCancel: bool): Settlement {
    if rejectOnCancel then Rejected else ResolvedVoid
  }
}

=== FILE: values.dfy ===
/**
 * JavaScript values as the library sees them.  Functions, Vue refs and
 * computeds, and `URLSearchParams` instances are opaque: they are identified by a name (or,
 * for a form, by the value it was built from) and their behaviour is not
 * modelled.  Finite numbers are reals; NaN and the infinities are cases
 * of their own.
 */
module JsValues {

  datatype Value =
    | Undef
    | Null
    | Bool(b: bool)
    | Num(n: real)
    | NaN
    | Infinity(negative: bool)  // `Infinity` or `-Infinity`
    | Str(s: string)
    | Func(name: string)        // a function value
    // A Vue ref or computed, read through `toValue`.  An object made
    // `reactive()` is an `Obj`, which `toValue` returns unchanged; only as a
    // watch source, where just its identity matters, is one named this way.
    | Reactive(name: string)
    | Form(source: Value)       // `new URLSearchParams(source)`
    | Arr(items: seq<Value>)
    | Obj(ctor: string, fields: map<string, Value>)

  /** `null` or `undefined`. */
  predicate Nullish(v: Value) {
    v.Undef? || v.Null?
  }

  /** JavaScript truthiness (`if (v)`, `!v`, `v || w`). */
  predicate Truthy(v: Value) {
    match v
    case Undef => false
    case Null => false
    case Bool(b) => b
    case Num(n) => n != 0.0
    case NaN => false
    case Str(s) => s != ""
    case _ => true
  }

  /** An object literal `{ ... }`. */
  function PlainObject(fields: map<string, Value>): Value {
    Obj("Object", fields)
  }

  /**
   * Vue's `toValue`: a ref yields its current value and a getter yields what
   * calling it returns; `env` maps each ref or getter name to that value at
   * the moment of the call.  Anything else is returned as it is.
   */
  function ToValue(v: Value, env: map<string, Value>): (r: Value)
    ensures !v.Reactive? && !v.Func? ==> r == v
    ensures (v.Reactive? || v.Func?) && v.name in env ==> r == env[v.name]
  {
    match v
    case Reactive(name) => if name in env then env[name] else Undef
    case Func(name) => if name in env then env[name] else Undef
    case _ => v
  }
}

=== FILE: wiring.dfy ===
/**
 * What `useAsyncData` and `useFetch` share: the request status, the shape
 * of the execution pipeline (the request, possibly debounced, possibly
 * throttled around that), and what happens at creation (one immediate call,
 * or a poller that makes it).
 */
module Wiring {
  import opened Wrappers
  import opened JsValues
  import opened Ctx
  import Polling

  datatype Status = Idle | Pending | Success | Error

  /** The function `execute` ends up calling, from the outside in. */
  datatype Pipeline =
    | Direct                                        // the request itself
    | Debounced(inner: Pipeline, interval: Value)   // `useDebounceFn(inner, interval)`
    | Throttled(inner: Pipeline, interval: Value)   // `useThrottleFn(inner, interval)`

  datatype Layer = DebounceLayer(interval: Value) | ThrottleLayer(interval: Value)

  /** The wrappers of a pipeline, outermost first. */
  function Layers(p: Pipeline): seq<Layer> {
    match p
    case Direct => []
    case Debounced(inner, interval) => [DebounceLayer(interval)] + Layers(inner)
    case Throttled(inner, interval) => [ThrottleLayer(interval)] + Layers(inner)
  }

  /**
   * The intended wrapping: a throttle when `throttleInterval` is defined,
   * around a debounce when `debounceInterval` is defined, around the request.
   */
  function ExpectedLayers(c: Composable): seq<Layer> {
    (if c.throttleInterval != Undef then [ThrottleLayer(c.throttleInterval)] else [])
    + (if c.debounceInterval != Undef then [DebounceLayer(c.debounceInterval)] else [])
  }

  /** A pipeline is determined by its layers. */
  lemma {:induction false} LayersDetermine(p: Pipeline, q: Pipeline)
    requires Layers(p) == Layers(q)
    ensures p == q
  {
    match p
    case Direct =>
    case Debounced(inner, interval) =>
      assert Layers(q)[0] == DebounceLayer(interval);
      assert Layers(q)[1..] == Layers(inner);
      LayersDetermine(inner, q.inner);
    case Throttled(inner, interval) =>
      assert Layers(q)[0] == ThrottleLayer(interval);
      assert Layers(q)[1..] == Layers(inner);
      LayersDetermine(inner, q.inner);
  }

  /** What happens at creation: the poller (with its `immediate` flag), if any, and whether `execute` is called at once. */
  datatype Startup = Startup(poller: Option<bool>, callNow: bool)

  /** `if (pollingInterval !== undefined) useTimeoutPoll(...)`; `if (immediate && pollingInterval === undefined) execute()` */
  function StartupPlan(c: Composable): Startup {
    Startup(
      if c.pollingInterval != Undef then Some(Truthy(c.immediate)) else None,
      Truthy(c.immediate) && c.pollingInterval == Undef)
  }

  /** The calls of `execute` made at creation, directly or by the poller's first `loop`. */
  function CreationCalls(plan: Startup): nat {
    (if plan.callNow then 1 else 0)
    + (if plan.poller.Some? then Polling.Created(plan.poller.value).fnCalls else 0)
  }

  /**
   * With or without polling, creation calls `execute` exactly once when
   * `immediate` is truthy and not at all otherwise; with polling it is the
   * poller that makes the call.
   */
  lemma CreationCallsOnce(c: Composable)
    ensures CreationCalls(StartupPlan(c)) == (if Truthy(c.immediate) then 1 else 0)
    ensures !(StartupPlan(c).callNow && StartupPlan(c).poller.Some?)
    ensures StartupPlan(c).poller.Some? <==> c.pollingInterval != Undef
  {
    if c.pollingInterval != Undef {
      Polling.CreationState(Truthy(c.immediate));
    }
  }
}

=== FILE: wrappers.dfy ===
/** The optional-value wrapper used throughout the model. */
module Wrappers {

  datatype Option<+T> = None | Some(value: T) {

    /** The wrapped value, or `default` when there is none (JavaScript's `??`). */
    function GetOr(default: T): T {
      match this
      case Some(v) => v
      case None => default
    }
  }
}
